=== FILE: README.md ===
# bookdesk — a verified model of the book catalogue's core logic

bookdesk is a book-catalogue CRUD application: a NestJS GraphQL backend over a
single `book` table, protected by Auth0 JWTs, and a React dashboard that talks
to it through Apollo Client. This project models the parts of it that are
logic rather than wiring, as immutable Dafny datatypes and pure functions:

- the dashboard's **cache reconciliation**: after a confirmed create, update or
  delete, the cached `GetBooks` list is patched (append, replace by id, filter
  by id) instead of being fetched again (`CacheReconciler`);
- the dashboard's **in-flight guards**: `handleSave` and `handleDeleteConfirm`
  with the `isSaving` / `isDeleting` flags and the shared
  `isMutationInProgress` ref. Each handler is split at its `await` into a
  Begin step and a Finish step, and how the mutation settled is an input
  (`Dashboard`);
- the **book form**: its reset effect, its Save handler and its Save button's
  disabled state (`BookModal`);
- the **book service** over an abstract store: a map from id to row plus the
  auto-increment counter (`BookService`);
- the **cache coherence** argument that ties the two sides together. If the
  cached list equals the server's `findAll` before a mutation, then
  reconciling with the server's answer gives the server's `findAll` after it.
  This holds for create, update and remove, including the null answers
  (`CacheCoherence`);
- the backend and frontend **configuration factories**, which are pure
  functions from the environment `map<string, string>` to configuration
  records (`Env`, `BackendConfig`, `FrontendConfig`);
- the **CORS origin check** of the serverless entry point (`CorsPolicy`), the
  **JWT guard's** `handleRequest` (`JwtAuthGuard`) and the **not-found
  message** (`BookNotFound`);
- the JavaScript primitives these rely on: `trim` over the exact
  ECMAScript whitespace set, `split` on one character, `join`, integer
  interpolation and `parseInt(s, 10)` (`Strings`, `Numbers`).

JavaScript truthiness is explicit throughout. An environment variable counts
as set only when it is present and non-empty (`Env.IsSet`). A missing value,
`null`, `undefined` and a falsy user are all `Option.None`. NaN from
`parseInt` is `None` too.

To verify, give every file to Dafny at once:
`dafny verify --resource-limit 2000000 --verification-time-limit 0 --warn-contradictory-assumptions *.dfy`.

## Model

| member | source | states |
|---|---|---|
| CacheReconciler.ReconcileCreate | frontend/src/components/Dashboard.tsx:117-127 | with data and a cached list, the result is the old list, unchanged and in order, followed by the returned book (length + 1); otherwise the cache is untouched |
| CacheReconciler.ReplaceById | frontend/src/components/Dashboard.tsx:138-140 | same length; each position holds the returned book if its id matched, else its old entry |
| CacheReconciler.ReconcileUpdate | frontend/src/components/Dashboard.tsx:131-145 | with data and a cached list, every position and every id is kept, matching entries become the returned book and the others are unchanged; otherwise the cache is untouched |
| CacheReconciler.RemoveById | frontend/src/components/Dashboard.tsx:156 | no entry with the id survives; every other entry keeps its multiplicity |
| CacheReconciler.ReconcileDelete | frontend/src/components/Dashboard.tsx:149-161 | with data and a cached list, the returned id is gone and every other entry keeps its multiplicity; otherwise the cache is untouched |
| CacheReconciler.ReconcileUpdateAbsent | frontend/src/components/Dashboard.tsx:138-139 | an update whose id is not cached leaves the list as it was |
| CacheReconciler.ReconcileUpdateIdempotent | frontend/src/components/Dashboard.tsx:138-139 | applying the same update confirmation twice equals applying it once |
| CacheReconciler.ReplaceByIdConcat | frontend/src/components/Dashboard.tsx:138 | replacing by id works piecewise on a concatenation, so positions are kept |
| CacheReconciler.RemoveByIdConcat | frontend/src/components/Dashboard.tsx:156 | filtering works piecewise on a concatenation, so the survivors keep their relative order |
| CacheReconciler.RemoveByIdAbsent | frontend/src/components/Dashboard.tsx:156 | filtering an id that no entry has is the identity |
| CacheReconciler.ReconcileDeleteAbsent | frontend/src/components/Dashboard.tsx:149-157 | a delete whose id is not cached leaves the list as it was |
| CacheReconciler.ReconcileDeleteIdempotent | frontend/src/components/Dashboard.tsx:149-157 | applying the same delete confirmation twice equals applying it once |
| CacheReconciler.ReconcileCreateTwiceDuplicates | frontend/src/components/Dashboard.tsx:123 | the append is unconditional: a repeated create confirmation leaves two copies, so create reconciliation is not idempotent |
| Dashboard.InitialAcceptsMutations | frontend/src/components/Dashboard.tsx:88-104 | on first render nothing is in flight: a save is sent as a create, a delete needs a target first and is then sent with its id |
| Dashboard.HandleCreate | frontend/src/components/Dashboard.tsx:168-172 | opens the form with no book being edited and `isSaving` cleared; the ref, the cache and the delete-side state are untouched |
| Dashboard.HandleEdit | frontend/src/components/Dashboard.tsx:178-182 | opens the form on the given book with `isSaving` cleared; the ref, the cache and the delete-side state are untouched |
| Dashboard.HandleClose | frontend/src/components/Dashboard.tsx:187-190 | closes the form and clears `isSaving`, but keeps the ref, the edited book, the cache and the delete-side state |
| Dashboard.HandleDeleteClick | frontend/src/components/Dashboard.tsx:208-211 | remembers the delete target and opens the confirmation; the ref, the cache, the edited book, both flags and the form's open state are untouched |
| Dashboard.SaveRequestFor | frontend/src/components/Dashboard.tsx:253-270 | an update carrying the edited book's id and both fields exactly when a book is being edited, otherwise a create of the two fields |
| Dashboard.BeginSave | frontend/src/components/Dashboard.tsx:244-251 | dropped, with the state unchanged, exactly when `isSaving` or the ref is set; otherwise both are raised and the request for the edited book is sent |
| Dashboard.FinishSave | frontend/src/components/Dashboard.tsx:271-279 | both flags are cleared on success and on failure; failure leaves cache and modal alone; success closes the modal and patches the cache with the create or update callback; a response without data leaves the cache alone |
| Dashboard.ReconcileSave | frontend/src/components/Dashboard.tsx:117-141 | the create callback appends the returned book, the update callback replaces the entries with its id and keeps the length; without data or a cached list the cache is untouched |
| Dashboard.HandleSave | frontend/src/components/Dashboard.tsx:244-280 | a save is sent exactly when neither flag is set; the request is the one for the edited book and the form's data, and the final state is the settled outcome applied with both flags raised, so both flags end cleared |
| Dashboard.BeginDelete | frontend/src/components/Dashboard.tsx:217-223 | dropped, with the state unchanged, without a target or while the ref is set; otherwise sends the target's id and raises the ref and `isDeleting` |
| Dashboard.FinishDelete | frontend/src/components/Dashboard.tsx:224-235 | the ref and `isDeleting` are cleared either way; success patches the cache with the delete callback, clears the target and closes the confirmation; failure keeps cache, target and confirmation |
| Dashboard.HandleDeleteConfirm | frontend/src/components/Dashboard.tsx:217-236 | a delete is sent exactly when there is a target and no mutation is in flight; the target's id is sent, and the final state is the settled outcome applied with the ref and `isDeleting` raised, so both end cleared |
| Dashboard.SaveInFlightBlocksMutations | frontend/src/components/Dashboard.tsx:244-279 | while a save is outstanding, a second save and a delete are both dropped; after it settles, on success or failure, a save is accepted again |
| Dashboard.DeleteInFlightBlocksMutations | frontend/src/components/Dashboard.tsx:217-235 | while a delete is outstanding, a second delete and a save are both dropped; after it settles a save is accepted again |
| Dashboard.RejectedSaveLocksForm | frontend/src/components/BookModal.tsx:36-56 | after a rejected save the modal's props are unchanged, so the form stays submitting and ignores clicks although the dashboard would accept a save; closing the modal frees it |
| Dashboard.EditAndSubmitSendsUpdate | frontend/src/components/Dashboard.tsx:253-262 | editing a book and submitting the untouched form sends an update of that id carrying the trimmed fields |
| BookModal.Reset | frontend/src/components/BookModal.tsx:36-46 | the fields show the given book, or are blank when there is none, and `isSubmitting` is false |
| BookModal.HandleSave | frontend/src/components/BookModal.tsx:48-56 | ignored exactly when submitting or when either field is all whitespace; otherwise `isSubmitting` becomes true and the trimmed, non-empty fields are handed on once |
| BookModal.SaveDisabled | frontend/src/components/BookModal.tsx:94 | the Save button is disabled exactly when a click would be ignored by the handler at line 50 |
| BookModal.Rerender | frontend/src/components/BookModal.tsx:36-46 | the reset effect runs only when `book` or `isOpen` changed: then the form is no longer submitting and shows both fields of the new book, or blanks both when there is none; otherwise the form is kept as it was |
| BookModal.SecondClickIgnored | frontend/src/components/BookModal.tsx:50-54 | a second click before the form resets is ignored |
| BookModal.ResubmitSameData | frontend/src/components/BookModal.tsx:55 | the submitted fields are already trimmed: submitting them again yields the same data |
| BookService.Empty | backend/src/book/entities/book.entity.ts:12-13 | an empty table, whose generated ids start at 1, satisfies the store invariant |
| BookService.Create | backend/src/book/book.service.ts:22-25 | the new id is fresh and larger than every stored id, the fields come from the input, the row is added and the invariant is kept |
| BookService.FindOne | backend/src/book/book.service.ts:40-42 | null exactly when the id is not stored; a found book is the stored row and carries the asked-for id |
| BookService.FindAll | backend/src/book/book.service.ts:31-33 | every stored book appears, only stored books appear, and ids strictly ascend, so there are no duplicates |
| BookService.FindAllFrom | backend/src/book/book.service.ts:31-33 | the rows with keys in a range, each exactly once, in ascending key order |
| BookService.PatchOf | backend/src/book/book.service.ts:50 | the id is split off: the patch is empty exactly when the input names no field, and applied to any row it keeps that row's id and writes exactly the supplied fields |
| BookService.ApplyPatch | backend/src/book/book.service.ts:50-51 | the id is never changed; present fields replace and absent fields are kept |
| BookService.Update | backend/src/book/book.service.ts:49-53 | refused with the store unchanged exactly when the input names no field; otherwise the answer is `findOne(id)` after the write, null with the store unchanged when the id is absent, and for a stored id the stored row with the patch applied; other rows, keys and the counter are unchanged |
| BookService.Remove | backend/src/book/book.service.ts:60-64 | the answer is the pre-delete `findOne(id)`, which is null for an absent id and raises no error; afterwards `findOne(id)` is null and only that row is gone |
| BookService.CreateThenFind | backend/src/book/book.service.ts:22-25 | a created book is found under its new id and the table grows by one |
| BookService.UpdateEmptyPatch | backend/src/book/book.service.ts:49-53 | an update naming no field is refused, whether or not the id is stored, and leaves the store unchanged |
| BookService.UpdatesCompose | backend/src/book/book.service.ts:49-53 | updating the name and then the description writes the same row and gives the same answer as one update naming both |
| BookService.Scenario | backend/src/book/book.service.ts:22-64 | create Dune gives id 1; a name-only update keeps the description; after remove the listing is empty and id 1 is not found |
| CacheCoherence.AppendListing | backend/src/book/book.service.ts:22-33 | filing a row past every stored key appends it to the listing |
| CacheCoherence.CreateKeepsCacheCoherent | frontend/src/components/Dashboard.tsx:116-124 | appending the created book to the server's old listing gives its new listing |
| CacheCoherence.UpdateKeepsCacheCoherent | frontend/src/components/Dashboard.tsx:130-141 | replacing by id in the old listing gives the listing after a successful `update`, also when the id is absent |
| CacheCoherence.RemoveKeepsCacheCoherent | frontend/src/components/Dashboard.tsx:148-157 | filtering the old listing gives the listing after `remove`, also when the id is absent |
| CacheCoherence.ServeSave | backend/src/book/book.resolver.ts:20-50 | the server keeps its invariant; a create always resolves with a new book, carrying the input's fields under a fresh id, and that book is stored; a resolved update carries a stored book; a rejected save (a null answer or a repository error) leaves the store unchanged |
| CacheCoherence.SentUpdatesAreNeverEmpty | frontend/src/components/Dashboard.tsx:253-262 | every update the dashboard sends names both fields, so the repository never refuses it, and it is answered with a book exactly when the edited id is still stored |
| CacheCoherence.ServeDelete | backend/src/book/book.resolver.ts:56-59 | the server keeps its invariant; a delete resolves exactly when the id is stored, with the row as it was before, which is then gone; a rejected delete leaves the store unchanged |
| CacheCoherence.SaveKeepsCacheCoherent | frontend/src/components/Dashboard.tsx:271 | after a save the dashboard sends and the server answers, the cache equals the server's listing, so no refetch is needed |
| CacheCoherence.DeleteKeepsCacheCoherent | frontend/src/components/Dashboard.tsx:226 | the same for a confirmed delete |
| Env.GetOr | backend/src/config/configuration.ts:105-106 | `process.env[k] \|\| d`: the variable when set and non-empty, the fallback otherwise |
| Env.Missing | backend/src/config/configuration.ts:89-91 | never more names than were required |
| Env.MissingMembers | backend/src/config/configuration.ts:89-91 | a name is reported exactly when it is required and unset or empty |
| Env.MissingConcat | backend/src/config/configuration.ts:89-91 | the missing names keep the order in which they were required |
| Env.Validate | backend/src/config/configuration.ts:93-97 | fails exactly when some required variable is unset or empty, with the prefix followed by the missing names joined by ", " |
| BackendConfig.Validate | backend/src/config/configuration.ts:83-98 | fails exactly when the issuer URL or the audience is missing; the message names the missing ones, issuer first |
| BackendConfig.MissingOfRequired | backend/src/config/configuration.ts:84-91 | the joined list of missing names in each of the three failing cases |
| BackendConfig.GetServerConfig | backend/src/config/configuration.ts:103-126 | `isVercel` exactly when `VERCEL` is set; production or test only when `NODE_ENV` is exactly that string; the port is `parseInt` of `PORT` or "4000" |
| BackendConfig.DefaultPortIs4000 | backend/src/config/configuration.ts:115-119 | without `PORT` the port is 4000 |
| BackendConfig.PortFromNumeral | backend/src/config/configuration.ts:115-119 | a decimal numeral in `PORT` gives that port |
| BackendConfig.GetDatabaseConfig | backend/src/config/configuration.ts:131-143 | on Vercel `/tmp/books.db`, else `DATABASE_PATH` or `books.db`; always sqlite, synchronised, not logging |
| BackendConfig.VercelDatabaseIgnoresEnvironment | backend/src/config/configuration.ts:132-135 | on Vercel the database settings do not depend on the environment at all |
| BackendConfig.GetGraphQLConfig | backend/src/config/configuration.ts:148-161 | playground and introspection exactly in development; the schema path depends only on `isVercel`; the schema is sorted |
| BackendConfig.GetAuth0Config | backend/src/config/configuration.ts:166-177 | issuer and audience come from the environment; `jwksUri` is the issuer followed by `/.well-known/jwks.json`; algorithms are RS256 and the rate is 5 |
| BackendConfig.GetCorsConfig | backend/src/config/configuration.ts:182-195 | a list exactly when the (defaulted) URL has a comma, whose entries are the trimmed comma-separated pieces, one per piece and each comma-free; otherwise the URL itself, untrimmed; credentials always on |
| BackendConfig.TrimAllChecked | backend/src/config/configuration.ts:188 | each piece is trimmed and still comma-free |
| BackendConfig.TrimmedSliceOf | backend/src/config/configuration.ts:188 | trimming adds no character |
| BackendConfig.GetApplicationConfig | backend/src/config/configuration.ts:201-217 | fails exactly when validation fails, with its message, and never yields a partial configuration; on success every part, the whole Auth0 block included, comes from its getter and the Auth0 values are non-empty |
| FrontendConfig.Validate | frontend/src/config/app.config.ts:52-68 | fails exactly when domain, client id or audience is missing; the message lists the missing names in declaration order |
| FrontendConfig.NothingSetNamesAll | frontend/src/config/app.config.ts:53-66 | with nothing set, all three names are listed in declaration order |
| FrontendConfig.RequiredJoin | frontend/src/config/app.config.ts:53-57 | the three required names joined by ", " |
| FrontendConfig.GetAuth0Config | frontend/src/config/app.config.ts:73-86 | domain, client id and audience fall back to ""; the redirect is the page origin; no refresh tokens; localstorage cache |
| FrontendConfig.Auth0EmptyEqualsAbsent | frontend/src/config/app.config.ts:74 | an empty and an absent variable read the same |
| FrontendConfig.GetApolloConfig | frontend/src/config/app.config.ts:91-100 | the GraphQL URL defaults to `http://localhost:4000/graphql` when unset or empty; the fetch policy is always cache-first; deduplication is always on |
| FrontendConfig.GetAppConfig | frontend/src/config/app.config.ts:106-113 | validation always comes first: fails exactly when it fails, with its message; on success the whole Auth0 block comes from its getter and the Auth0 values are the non-empty variables |
| CorsPolicy.AllowedOrigins | backend/api/index.ts:18-20 | `["http://localhost:3000"]` when `FRONTEND_URL` is unset or empty; otherwise the comma-separated pieces of the variable, each trimmed, one entry per piece |
| CorsPolicy.CheckOrigin | backend/api/index.ts:23-29 | allowed exactly when the origin is missing or empty or equals an entry; otherwise rejected with "Not allowed by CORS" |
| CorsPolicy.DefaultOriginIsPlain | backend/api/index.ts:20 | the default origin has no comma and no surrounding whitespace, and matches the configuration's default |
| CorsPolicy.AllowListMatchesConfiguration | backend/api/index.ts:18-20 | with a comma, the allow-list equals the configuration's origin list; without one, the configuration keeps the value untrimmed while the allow-list trims it |
| CorsPolicy.PaddedSingleOrigin | backend/api/index.ts:19 | a space-padded `FRONTEND_URL` is handed on padded by the configuration, but the bare origin is accepted by the entry point |
| JwtAuthGuard.UnauthorizedMessage | backend/src/auth/guards/jwt-auth.guard.ts:44 | `info.message` when present and non-empty, else "Unauthorized access"; never empty |
| JwtAuthGuard.HandleRequest | backend/src/auth/guards/jwt-auth.guard.ts:38-49 | the user is returned unchanged exactly when there is no error and a user; an error is rethrown even when a user is present; no error and no user throws Unauthorized |
| JwtAuthGuard.NoUserNoAccess | backend/src/auth/guards/jwt-auth.guard.ts:43-45 | without a user nothing gets through, and without an error the rejection is Unauthorized with a non-empty message |
| BookNotFound.Message | backend/src/common/exceptions/book-not-found.exception.ts:9-14 | every message starts with "Book not found"; it is exactly that when the id is absent or 0 |
| BookNotFound.MessageNamesId | backend/src/common/exceptions/book-not-found.exception.ts:10-11 | for a non-zero id the message is "Book not found with ID: " followed by the id's decimal form, which parses back to the id |
| Strings.Trim | frontend/src/components/BookModal.tsx:50 | the result is a slice of the input with only whitespace cut on either side, has no surrounding whitespace, and is empty exactly when the input is all whitespace |
| Strings.TrimIdempotent | frontend/src/components/BookModal.tsx:55 | trimming twice equals trimming once |
| Strings.Split | backend/api/index.ts:19 | one piece per separator plus one; no piece contains the separator; joining the pieces with it gives the input back |
| Strings.SplitJoin | backend/api/index.ts:19 | splitting a join of separator-free pieces gives the pieces back |
| Strings.SplitWithoutSeparator | backend/src/config/configuration.ts:187-189 | a string without the separator splits into itself alone |
| Strings.Join | backend/src/config/configuration.ts:95 | no parts give the empty string and one part gives itself |
| Strings.JoinShape | backend/src/config/configuration.ts:95 | the joined string starts with the first part, and its length is the parts' total plus one separator between each neighbouring pair |
| Strings.TrimAll | backend/api/index.ts:19 | each piece is trimmed in place |
| Numbers.NatToString | backend/src/common/exceptions/book-not-found.exception.ts:11 | a non-empty string of digits without a leading zero |
| Numbers.IntToString | backend/src/common/exceptions/book-not-found.exception.ts:11 | begins with "-" exactly for negative integers |
| Numbers.ParseInt | backend/src/config/configuration.ts:115-119 | a number exactly when a digit follows the leading whitespace and optional sign; NaN otherwise |
| Numbers.ParseIntOfNumeral | backend/src/config/configuration.ts:115-119 | a numeral followed by a non-digit parses to its value, with or without a minus sign |
| Numbers.ParseIntToString | backend/src/common/exceptions/book-not-found.exception.ts:11 | parsing an interpolated integer gives it back |

## How the model follows the code

- A repeated create confirmation is not a no-op: the create callback
  appends unconditionally (`Dashboard.tsx:123`). The model appends too, and
  `ReconcileCreateTwiceDuplicates` shows the duplicate. Only the in-flight
  guards (`SaveInFlightBlocksMutations`) prevent duplicates.
- The service raises no not-found error. `findOne`, `update` and `remove`
  answer with `findOne`'s null (`book.service.ts:40-42, 52, 63`), so the
  model answers `None`. `BookNotFoundException` is modelled only for its
  message. The GraphQL fields are declared non-null, so a null answer
  reaches the client as a failed mutation. `ServeSave` and `ServeDelete`
  report it that way.
- An update that names no field passes `{}` to the repository
  (`book.service.ts:50-51`), which throws before writing anything. The
  model answers with the `UpdateValuesMissing` failure and leaves the
  store unchanged. The dashboard never sends such an update
  (`SentUpdatesAreNeverEmpty`).
- `findAll` calls `find()` without an order. The model lists rows in
  ascending id order, which is the order SQLite gives for a rowid table.
  The coherence lemmas depend on this choice: a created book is appended at
  the end because its id is the largest.
- The guards: `handleDeleteConfirm` tests only the shared ref, not
  `isDeleting`. `handleClose`, `handleCreate` and `handleEdit` clear
  `isSaving` but not the ref. The model keeps both asymmetries.
- A rejected save locks the form. The modal stays open on the same book.
  The form's reset effect depends only on `[book, isOpen]`
  (`BookModal.tsx:46`), so it does not run, and `isSubmitting` stays true.
  Save and Cancel therefore stay disabled until the modal is dismissed.
  This holds even though the dashboard's own guards would accept another
  save (`RejectedSaveLocksForm`). The "a save is accepted again" of
  `SaveInFlightBlocksMutations` is about the dashboard's handler only.

## Left out

- React rendering, Chakra modals, routing, `Login`, `App`, `ProtectedRoute` and
  `index.tsx`: presentation only. The modal's open state is a boolean.
- Apollo internals (`readQuery`/`writeQuery`, normalisation, fetch policies,
  the link chain): the cached query result is a plain `Option<seq<Book>>`.
- TypeORM, SQLite and NestJS wiring (modules, `main.ts`, the resolver's
  delegation): the store is a map plus an id counter. Store-level failures
  other than the refused empty update are not modelled, for example a
  `null` written to a non-null column.
- JWT verification in `auth0.strategy.ts` (JWKS fetch, signature and
  claim checks): external cryptography and network. The guard takes the
  strategy's `(err, user, info)` as input.
- Asynchronous interleaving and stale React state: each handler is two
  sequential steps, and a mutation's result is an input, not a concurrent
  event.
- `createApp` memoisation in `api/index.ts:9-12` and the `handler` export:
  I/O plumbing.
- The failure effects of the two handlers, `console.error` and `alert(...)`
  (`Dashboard.tsx:230-231, 274-275`): logging and a browser dialog with no
  effect on state. A rejected outcome is modelled only through the state
  it leaves.
- BookModal.Rerender: compares the `[book, isOpen]` props structurally,
  whereas React compares dependencies by reference (`Object.is`). A new
  object with the same book would re-run the effect in the program but not
  in the model. No lemma depends on the difference.
- `window.location.origin` in the frontend Auth0 settings: it is a
  parameter.
- Numbers.ParseInt: does not model JavaScript's `-0` (it reads as 0), nor
  numerals too large for a double. An integer id is assumed to interpolate
  as its plain decimal form.
- Name and description length limits (`app.constants.ts:31-36`): declared
  but not enforced by any code shown, so they are not invariants here.
- The GraphQL documents in `graphql/book.queries.ts`: inert strings.

=== FILE: backend_config.dfy ===
/** The backend's configuration factory: pure functions from the process
    environment to the server, database, GraphQL, Auth0 and CORS
    settings, behind a validation of the required variables. */
module BackendConfig {
  import opened Wrappers
  import opened Env
  import Strings
  import Numbers

  const NodeEnvVar: string := "NODE_ENV"
  const PortVar: string := "PORT"
  const VercelVar: string := "VERCEL"
  const FrontendUrlVar: string := "FRONTEND_URL"
  const DatabasePathVar: string := "DATABASE_PATH"
  const IssuerUrlVar: string := "AUTH0_ISSUER_URL"
  const AudienceVar: string := "AUTH0_AUDIENCE"

  const DefaultPort: string := "4000"
  const DefaultFrontendUrl: string := "http://localhost:3000"
  const DefaultDatabasePath: string := "books.db"
  const SchemaPath: string := "src/schema.gql"
  const TempSchemaPath: string := "/tmp/schema.gql"
  const TempDatabasePath: string := "/tmp/books.db"
  const JwksPath: string := "/.well-known/jwks.json"
  const JwksRequestsPerMinute: int := 5

  datatype ServerEnvironment = Development | Production | Test

  /** The environment's name as the configuration spells it. */
  function EnvironmentName(e: ServerEnvironment): string {
    match e
    case Development => "development"
    case Production => "production"
    case Test => "test"
  }

  /** `port` is the result of `parseInt`; `None` is NaN. */
  datatype ServerConfig = ServerConfig(port: Option<int>, environment: ServerEnvironment, isVercel: bool)

  datatype DatabaseType = Sqlite | Postgres | Mysql

  datatype DatabaseConfig = DatabaseConfig(dbType: DatabaseType, database: string, synchronize: bool, logging: bool)

  datatype GraphQLConfig = GraphQLConfig(autoSchemaFile: string, sortSchema: bool, playground: bool, introspection: bool)

  datatype Auth0Config = Auth0Config(
    issuerUrl: string, audience: string, jwksUri: string,
    algorithms: seq<string>, jwksRequestsPerMinute: int)

  /** `string | string[]`. */
  datatype CorsOrigin = SingleOrigin(url: string) | OriginList(urls: seq<string>)

  datatype CorsConfig = CorsConfig(origin: CorsOrigin, credentials: bool)

  datatype ApplicationConfig = ApplicationConfig(
    server: ServerConfig, database: DatabaseConfig, graphql: GraphQLConfig,
    auth0: Auth0Config, cors: CorsConfig)

  const Required: seq<string> := [IssuerUrlVar, AudienceVar]

  /** `validateEnvironmentVariables` with the backend's two required
      variables; the message names the missing ones, issuer first. */
  function Validate(env: Environment): (r: Result<(), string>)
    ensures r.Failure? <==> !IsSet(env, IssuerUrlVar) || !IsSet(env, AudienceVar)
    ensures !IsSet(env, IssuerUrlVar) && !IsSet(env, AudienceVar) ==>
              r == Failure(MissingPrefix + "AUTH0_ISSUER_URL, AUTH0_AUDIENCE")
    ensures !IsSet(env, IssuerUrlVar) && IsSet(env, AudienceVar) ==>
              r == Failure(MissingPrefix + "AUTH0_ISSUER_URL")
    ensures IsSet(env, IssuerUrlVar) && !IsSet(env, AudienceVar) ==>
              r == Failure(MissingPrefix + "AUTH0_AUDIENCE")
  {
    MissingOfRequired(env);
    Env.Validate(env, Required)
  }

  /** Which of the two names are reported, joined as in the message. */
  lemma MissingOfRequired(env: Environment)
    ensures var missing := Missing(env, Required);
            && (!IsSet(env, IssuerUrlVar) && !IsSet(env, AudienceVar) ==>
                  Strings.Join(missing, ", ") == "AUTH0_ISSUER_URL, AUTH0_AUDIENCE")
            && (!IsSet(env, IssuerUrlVar) && IsSet(env, AudienceVar) ==>
                  Strings.Join(missing, ", ") == "AUTH0_ISSUER_URL")
            && (IsSet(env, IssuerUrlVar) && !IsSet(env, AudienceVar) ==>
                  Strings.Join(missing, ", ") == "AUTH0_AUDIENCE")
  {
    MissingConcat(env, [IssuerUrlVar], [AudienceVar]);
    assert Required == [IssuerUrlVar] + [AudienceVar];
    var missing := Missing(env, Required);
    assert missing == (if IsSet(env, IssuerUrlVar) then [] else [IssuerUrlVar])
                      + (if IsSet(env, AudienceVar) then [] else [AudienceVar]);
    if !IsSet(env, IssuerUrlVar) && !IsSet(env, AudienceVar) {
      assert missing[1..] == [AudienceVar];
      assert Strings.Join(missing, ", ") == IssuerUrlVar + ", " + AudienceVar;
    }
  }

  /** `getServerConfig`. */
  function GetServerConfig(env: Environment): (c: ServerConfig)
    ensures c.isVercel <==> IsSet(env, VercelVar)
    ensures c.environment == Production <==> NodeEnvVar in env && env[NodeEnvVar] == "production"
    ensures c.environment == Test <==> NodeEnvVar in env && env[NodeEnvVar] == "test"
    ensures c.port == Numbers.ParseInt(GetOr(env, PortVar, DefaultPort))
  {
    var nodeEnv := GetOr(env, NodeEnvVar, EnvironmentName(Development));
    var environment :=
      if nodeEnv == EnvironmentName(Production) then Production
      else if nodeEnv == EnvironmentName(Test) then Test
      else Development;
    ServerConfig(Numbers.ParseInt(GetOr(env, PortVar, DefaultPort)), environment, IsSet(env, VercelVar))
  }

  /** Without `PORT` the server listens on 4000. */
  lemma DefaultPortIs4000(env: Environment)
    requires !IsSet(env, PortVar)
    ensures GetServerConfig(env).port == Some(4000)
  {
    assert Numbers.NatToString(4) == "4";
    assert Numbers.NatToString(40) == "40";
    assert Numbers.NatToString(400) == "400";
    assert Numbers.NatToString(4000) == "4000";
    Numbers.ParseIntOfNumeral(4000, "");
    assert DefaultPort + "" == DefaultPort;
  }

  /** With `PORT` set to a decimal numeral the server listens on that
      number. */
  lemma PortFromNumeral(env: Environment, n: nat)
    requires PortVar in env && env[PortVar] == Numbers.NatToString(n)
    ensures GetServerConfig(env).port == Some(n)
  {
    Numbers.ParseIntOfNumeral(n, "");
    assert Numbers.NatToString(n) + "" == Numbers.NatToString(n);
  }

  /** `getDatabaseConfig`. */
  function GetDatabaseConfig(env: Environment, server: ServerConfig): (c: DatabaseConfig)
    ensures server.isVercel ==> c.database == TempDatabasePath
    ensures !server.isVercel ==> c.database == GetOr(env, DatabasePathVar, DefaultDatabasePath)
    ensures c.dbType == Sqlite && c.synchronize && !c.logging
  {
    var path := if server.isVercel then TempDatabasePath else GetOr(env, DatabasePathVar, DefaultDatabasePath);
    DatabaseConfig(Sqlite, path, true, false)
  }

  /** On Vercel the database location ignores the environment entirely. */
  lemma VercelDatabaseIgnoresEnvironment(env: Environment, env': Environment, server: ServerConfig)
    requires server.isVercel
    ensures GetDatabaseConfig(env, server) == GetDatabaseConfig(env', server)
  {
  }

  /** `getGraphQLConfig`. */
  function GetGraphQLConfig(server: ServerConfig): (c: GraphQLConfig)
    ensures c.playground <==> server.environment == Development
    ensures c.introspection <==> server.environment == Development
    ensures c.autoSchemaFile == (if server.isVercel then TempSchemaPath else SchemaPath)
    ensures c.sortSchema
  {
    var isDevelopment := EnvironmentName(server.environment) == EnvironmentName(Development);
    GraphQLConfig(if server.isVercel then TempSchemaPath else SchemaPath, true, isDevelopment, isDevelopment)
  }

  /** `getAuth0Config`. It reads both variables without a check of its
      own (the non-null assertion is erased at run time); they are present
      because its only caller, `getApplicationConfig`, validates first. */
  function GetAuth0Config(env: Environment): (c: Auth0Config)
    requires IssuerUrlVar in env && AudienceVar in env
    ensures c.issuerUrl == env[IssuerUrlVar] && c.audience == env[AudienceVar]
    ensures |c.jwksUri| == |c.issuerUrl| + |JwksPath|
    ensures c.jwksUri[..|c.issuerUrl|] == c.issuerUrl && c.jwksUri[|c.issuerUrl|..] == JwksPath
    ensures c.algorithms == ["RS256"] && c.jwksRequestsPerMinute == 5
  {
    var issuerUrl := env[IssuerUrlVar];
    Auth0Config(issuerUrl, env[AudienceVar], issuerUrl + JwksPath, ["RS256"], JwksRequestsPerMinute)
  }

  /** `getCorsConfig`: a list of trimmed pieces when `FRONTEND_URL`
      (defaulted) contains a comma, otherwise the value itself, untrimmed. */
  function GetCorsConfig(env: Environment): (c: CorsConfig)
    ensures var url := GetOr(env, FrontendUrlVar, DefaultFrontendUrl);
            && (c.origin.OriginList? <==> ',' in url)
            && (c.origin.SingleOrigin? ==> c.origin.url == url)
            && (c.origin.OriginList? ==>
                  && |c.origin.urls| == Strings.Occurrences(url, ',') + 1
                  && forall i :: 0 <= i < |c.origin.urls| ==>
                       && c.origin.urls[i] == Strings.Trim(Strings.Split(url, ',')[i])
                       && Strings.IsTrimmed(c.origin.urls[i]) && ',' !in c.origin.urls[i])
    ensures c.credentials
  {
    var url := GetOr(env, FrontendUrlVar, DefaultFrontendUrl);
    var origin := if ',' in url then OriginList(TrimAllChecked(Strings.Split(url, ','))) else SingleOrigin(url);
    CorsConfig(origin, true)
  }

  /** Trimming pieces that hold no comma leaves pieces that hold no comma. */
  function TrimAllChecked(parts: seq<string>): (r: seq<string>)
    requires forall i :: 0 <= i < |parts| ==> ',' !in parts[i]
    ensures |r| == |parts|
    ensures forall i :: 0 <= i < |r| ==> r[i] == Strings.Trim(parts[i]) && Strings.IsTrimmed(r[i]) && ',' !in r[i]
  {
    var r := Strings.TrimAll(parts);
    assert forall i :: 0 <= i < |r| ==> ',' !in r[i] by {
      forall i | 0 <= i < |r| ensures ',' !in r[i] {
        TrimmedSliceOf(parts[i]);
      }
    }
    r
  }

  /** Every character of a trim comes from the untrimmed string. */
  lemma TrimmedSliceOf(s: string)
    ensures forall c :: c in Strings.Trim(s) ==> c in s
  {
    var r := Strings.Trim(s);
    var i, j :| 0 <= i <= j <= |s| && r == s[i..j]
                && Strings.AllWhitespace(s[..i]) && Strings.AllWhitespace(s[j..]);
    forall c | c in r ensures c in s {
      var k :| 0 <= k < |r| && r[k] == c;
      assert s[i + k] == c;
    }
  }

  /** `getApplicationConfig`: validation runs first, so a missing
      variable yields the validation error and never a partial
      configuration. */
  function GetApplicationConfig(env: Environment): (r: Result<ApplicationConfig, string>)
    ensures r.Failure? <==> !IsSet(env, IssuerUrlVar) || !IsSet(env, AudienceVar)
    ensures r.Failure? ==> r == Failure(Validate(env).error)
    ensures r.Success? ==> && r.value.auth0.issuerUrl == env[IssuerUrlVar] != ""
                           && r.value.auth0.audience == env[AudienceVar] != ""
                           && r.value.auth0 == GetAuth0Config(env)
                           && r.value.server == GetServerConfig(env)
                           && r.value.database == GetDatabaseConfig(env, r.value.server)
                           && r.value.graphql == GetGraphQLConfig(r.value.server)
                           && r.value.cors == GetCorsConfig(env)
  {
    match Validate(env)
    case Failure(e) => Failure(e)
    case Success(_) =>
      var server := GetServerConfig(env);
      Success(ApplicationConfig(server, GetDatabaseConfig(env, server), GetGraphQLConfig(server),
                                GetAuth0Config(env), GetCorsConfig(env)))
  }
}

=== FILE: book.dfy ===
/** The `Book` entity and its two GraphQL input types. */
module BookEntity {
  import opened Wrappers

  /** One row of the `book` table; `id` is the generated primary key. */
  datatype Book = Book(id: int, name: string, description: string)

  /** `createBook` input: both fields required. */
  datatype CreateBookInput = CreateBookInput(name: string, description: string)

  /** `updateBook` input: the id plus the fields to change; an absent
      field (`None`) is left as stored. */
  datatype UpdateBookInput = UpdateBookInput(id: int, name: Option<string>, description: Option<string>)
}

=== FILE: book_modal.dfy ===
/** The create/edit form: its two text fields, the submitting flag, the
    reset effect, the Save handler and the Save button's disabled state. */
module BookModal {
  import opened Wrappers
  import opened BookEntity
  import Strings

  /** What the form hands to its `onSave` callback. */
  datatype BookData = BookData(name: string, description: string)

  datatype ModalState = ModalState(name: string, description: string, isSubmitting: bool)

  /** The effect that runs whenever the modal opens, closes or receives
      another book: the fields show that book, or are blank for a new
      one, and any earlier submission is forgotten. */
  function Reset(book: Option<Book>): (m: ModalState)
    ensures !m.isSubmitting
    ensures book.Some? ==> m.name == book.value.name && m.description == book.value.description
    ensures book.None? ==> m.name == "" && m.description == ""
  {
    match book
    case Some(b) => ModalState(b.name, b.description, false)
    case None => ModalState("", "", false)
  }

  /** `isDisabled` of the Save button: disabled exactly when a click
      would be ignored by the handler. */
  function SaveDisabled(m: ModalState): (disabled: bool)
    ensures disabled <==> HandleSave(m).1.None?
  {
    m.isSubmitting || Strings.Trim(m.name) == "" || Strings.Trim(m.description) == ""
  }

  /** Clicking Save: ignored while a submission is pending or while either
      field is blank after trimming; otherwise the form becomes submitting
      and hands the trimmed fields to `onSave` once. */
  function HandleSave(m: ModalState): (r: (ModalState, Option<BookData>))
    ensures r.1.None? <==> m.isSubmitting || Strings.AllWhitespace(m.name) || Strings.AllWhitespace(m.description)
    ensures r.1.None? ==> r.0 == m
    ensures r.1.Some? ==> r.0 == m.(isSubmitting := true)
    ensures r.1.Some? ==> && r.1.value.name == Strings.Trim(m.name)
                          && r.1.value.description == Strings.Trim(m.description)
                          && r.1.value.name != "" && r.1.value.description != ""
                          && Strings.IsTrimmed(r.1.value.name) && Strings.IsTrimmed(r.1.value.description)
  {
    if m.isSubmitting || Strings.Trim(m.name) == "" || Strings.Trim(m.description) == "" then
      (m, None)
    else
      (m.(isSubmitting := true), Some(BookData(Strings.Trim(m.name), Strings.Trim(m.description))))
  }

  /** The props the reset effect depends on (`[book, isOpen]`). */
  datatype Props = Props(book: Option<Book>, isOpen: bool)

  /** The form after a render that moves the props from `before` to
      `after`: the reset effect runs only when one of them changed. */
  function Rerender(m: ModalState, before: Props, after: Props): (m': ModalState)
    ensures before != after ==> !m'.isSubmitting
    ensures before == after ==> m' == m
    ensures before != after && after.book.Some? ==> m'.name == after.book.value.name
    ensures before != after && after.book.Some? ==> m'.description == after.book.value.description
    ensures before != after && after.book.None? ==> m'.name == "" && m'.description == ""
  {
    if before == after then m else Reset(after.book)
  }

  /** A second click before the modal resets is ignored. */
  lemma SecondClickIgnored(m: ModalState)
    ensures HandleSave(HandleSave(m).0).1.None?
  {
  }

  /** Submitting never changes what the form submits: feeding the
      submitted data back into a fresh form submits the same data. */
  lemma ResubmitSameData(m: ModalState)
    requires !m.isSubmitting && !Strings.AllWhitespace(m.name) && !Strings.AllWhitespace(m.description)
    ensures HandleSave(m).1.Some?
    ensures var d := HandleSave(m).1.value;
            HandleSave(ModalState(d.name, d.description, false)).1 == Some(d)
  {
    var d := HandleSave(m).1.value;
    Strings.TrimTrimmed(d.name);
    Strings.TrimTrimmed(d.description);
  }
}

=== FILE: book_not_found.dfy ===
/** Message formatting of `BookNotFoundException`. */
module BookNotFound {
  import opened Wrappers
  import Numbers

  /** `ERROR_MESSAGES.BOOK_NOT_FOUND`. */
  const Generic: string := "Book not found"

  /** What precedes the id in the specific message. */
  const WithIdPrefix: string := Generic + " with ID: "

  predicate StartsWith(s: string, prefix: string) {
    |prefix| <= |s| && s[..|prefix|] == prefix
  }

  /** Message of `new BookNotFoundException(bookId)`. The id is tested
      for JavaScript truthiness, so both an absent id and id 0 get the
      generic message. */
  function Message(bookId: Option<int>): (m: string)
    ensures StartsWith(m, Generic)
    ensures m == Generic <==> bookId.None? || bookId.value == 0
  {
    if bookId.Some? && bookId.value != 0 then
      WithIdPrefix + Numbers.IntToString(bookId.value)
    else
      Generic
  }

  /** For a non-zero id the message names exactly that id: reading the
      text after the prefix back as an integer recovers it. */
  lemma MessageNamesId(id: int)
    requires id != 0
    ensures StartsWith(Message(Some(id)), WithIdPrefix)
    ensures Message(Some(id)) == WithIdPrefix + Numbers.IntToString(id)
    ensures Numbers.ParseInt(Message(Some(id))[|WithIdPrefix|..]) == Some(id)
  {
    var m := Message(Some(id));
    assert m[|WithIdPrefix|..] == Numbers.IntToString(id);
    Numbers.ParseIntToString(id);
  }
}

=== FILE: book_service.dfy ===
/** `BookService` over an abstract repository: the `book` table is a map
    from primary key to row, plus the next value of its auto-increment
    sequence (SQLite AUTOINCREMENT never hands out a key twice). */
module BookService {
  import opened Wrappers
  import opened BookEntity

  datatype Store = Store(rows: map<int, Book>, nextId: int)

  /** Every row is filed under its own id. */
  predicate IdsMatch(rows: map<int, Book>) {
    forall k :: k in rows ==> rows[k].id == k
  }

  /** Representation invariant: ids match their keys and every key was
      handed out by the sequence, which starts at 1. */
  predicate Valid(st: Store) {
    && st.nextId >= 1
    && IdsMatch(st.rows)
    && forall k :: k in st.rows ==> 1 <= k < st.nextId
  }

  /** A freshly created table. */
  function Empty(): (st: Store)
    ensures Valid(st) && |st.rows| == 0
  {
    Store(map[], 1)
  }

  /** `create`: the repository builds the row and `save` assigns it the
      next generated id. */
  function Create(st: Store, input: CreateBookInput): (r: (Store, Book))
    requires Valid(st)
    ensures Valid(r.0)
    ensures r.1.id !in st.rows
    ensures forall k :: k in st.rows ==> k < r.1.id
    ensures r.1.name == input.name && r.1.description == input.description
    ensures r.0.rows == st.rows[r.1.id := r.1]
  {
    var b := Book(st.nextId, input.name, input.description);
    (Store(st.rows[b.id := b], st.nextId + 1), b)
  }

  /** `findOne`: the row with that id, or null. */
  function FindOne(st: Store, id: int): (r: Option<Book>)
    ensures r.Some? <==> id in st.rows
    ensures r.Some? ==> r.value == st.rows[id]
    ensures r.Some? && IdsMatch(st.rows) ==> r.value.id == id
  {
    if id in st.rows then Some(st.rows[id]) else None
  }

  /** Rows with keys in `[lo, hi)`, in ascending key order. */
  function FindAllFrom(rows: map<int, Book>, lo: int, hi: int): (r: seq<Book>)
    requires IdsMatch(rows)
    ensures forall i :: 0 <= i < |r| ==> lo <= r[i].id < hi && r[i].id in rows && rows[r[i].id] == r[i]
    ensures forall k {:trigger rows[k] in r} :: k in rows && lo <= k < hi ==> rows[k] in r
    ensures forall i, j :: 0 <= i < j < |r| ==> r[i].id < r[j].id
    decreases hi - lo
  {
    if lo >= hi then []
    else (if lo in rows then [rows[lo]] else []) + FindAllFrom(rows, lo + 1, hi)
  }

  /** `findAll`: every stored book exactly once, in ascending id order. */
  function FindAll(st: Store): (r: seq<Book>)
    requires Valid(st)
    ensures forall i :: 0 <= i < |r| ==> FindOne(st, r[i].id) == Some(r[i])
    ensures forall k {:trigger st.rows[k] in r} :: k in st.rows ==> st.rows[k] in r
    ensures forall i, j :: 0 <= i < j < |r| ==> r[i].id < r[j].id
  {
    FindAllFrom(st.rows, 1, st.nextId)
  }

  /** The fields of an update, after `{ id, ...updateData }` has split
      the id off: a patch has no way to name an id. */
  datatype BookPatch = BookPatch(name: Option<string>, description: Option<string>)

  /** The patch names no column at all. */
  predicate IsEmptyPatch(p: BookPatch) {
    p.name.None? && p.description.None?
  }

  /** `{ id, ...updateData }`: the patch is what remains of the input once
      the id is taken off, so applying it to any row keeps that row's id
      and writes exactly the fields the input supplies. */
  function PatchOf(input: UpdateBookInput): (p: BookPatch)
    ensures IsEmptyPatch(p) <==> input.name.None? && input.description.None?
    ensures forall b: Book :: ApplyPatch(b, p) == Book(b.id, input.name.GetOr(b.name), input.description.GetOr(b.description))
  {
    BookPatch(input.name, input.description)
  }

  /** How the repository refuses a write: an `update` whose value object
      has no defined column is rejected before any row is touched. */
  datatype StoreError = UpdateValuesMissing

  /** A row after the patch is written: present fields replace, absent
      ones are kept, the id is untouched. */
  function ApplyPatch(b: Book, p: BookPatch): (r: Book)
    ensures r.id == b.id
    ensures p.name.None? ==> r.name == b.name
    ensures p.name.Some? ==> r.name == p.name.value
    ensures p.description.None? ==> r.description == b.description
    ensures p.description.Some? ==> r.description == p.description.value
  {
    Book(b.id, p.name.GetOr(b.name), p.description.GetOr(b.description))
  }

  /** `update`: write the patch to the row with that id (a missing row is
      left missing), then answer with `findOne(id)`. A patch naming no
      column makes the repository throw before anything is written. */
  function Update(st: Store, input: UpdateBookInput): (r: (Store, Result<Option<Book>, StoreError>))
    ensures r.1.Failure? <==> IsEmptyPatch(PatchOf(input))
    ensures r.1.Failure? ==> r.0 == st && r.1.error == UpdateValuesMissing
    ensures r.1.Success? ==> r.1.value == FindOne(r.0, input.id)
    ensures r.1.Success? ==> (r.1.value.None? <==> input.id !in st.rows)
    ensures r.1.Success? && input.id !in st.rows ==> r.0 == st
    ensures r.1.Success? && input.id in st.rows ==>
              r.1.value == Some(ApplyPatch(st.rows[input.id], PatchOf(input)))
    ensures r.0.nextId == st.nextId && r.0.rows.Keys == st.rows.Keys
    ensures forall k :: k in st.rows && k != input.id ==> r.0.rows[k] == st.rows[k]
    ensures Valid(st) ==> Valid(r.0)
  {
    var id := input.id;
    var patch := PatchOf(input);
    if IsEmptyPatch(patch) then (st, Failure(UpdateValuesMissing))
    else
      var st' := if id in st.rows then st.(rows := st.rows[id := ApplyPatch(st.rows[id], patch)]) else st;
      (st', Success(FindOne(st', id)))
  }

  /** `remove`: read the row, delete it, answer with what was read. */
  function Remove(st: Store, id: int): (r: (Store, Option<Book>))
    ensures r.1 == FindOne(st, id)
    ensures FindOne(r.0, id).None?
    ensures r.0.rows == st.rows - {id} && r.0.nextId == st.nextId
    ensures r.1.None? ==> r.0 == st
    ensures Valid(st) ==> Valid(r.0)
  {
    var snapshot := FindOne(st, id);
    var st' := st.(rows := st.rows - {id});
    assert snapshot.None? ==> st'.rows == st.rows;
    (st', snapshot)
  }

  /** A created book can be found under its new id. */
  lemma CreateThenFind(st: Store, input: CreateBookInput)
    requires Valid(st)
    ensures var (st', b) := Create(st, input);
            FindOne(st', b.id) == Some(b) && |st'.rows| == |st.rows| + 1
  {
  }

  /** An update that names no field is refused whether or not the id
      exists, and the table is left as it was. */
  lemma UpdateEmptyPatch(st: Store, id: int)
    ensures Update(st, UpdateBookInput(id, None, None)) == (st, Failure(UpdateValuesMissing))
  {
  }

  /** Updating one field and then the other writes the same row as one
      update naming both. */
  lemma UpdatesCompose(st: Store, id: int, name: string, description: string)
    requires Valid(st) && id in st.rows
    ensures var (s1, _) := Update(st, UpdateBookInput(id, Some(name), None));
            var (s2, r2) := Update(s1, UpdateBookInput(id, None, Some(description)));
            var (s3, r3) := Update(st, UpdateBookInput(id, Some(name), Some(description)));
            && s2 == s3 && r2 == r3
            && r3 == Success(Some(Book(id, name, description)))
  {
    var b := st.rows[id];
    var s1 := Store(st.rows[id := Book(id, name, b.description)], st.nextId);
    assert Update(st, UpdateBookInput(id, Some(name), None)).0 == s1;
    assert s1.rows[id := Book(id, name, description)] == st.rows[id := Book(id, name, description)];
  }

  /** The create / update / delete walk-through: the first book gets id 1,
      a name-only update keeps the description, and after the delete the
      table is empty and the id no longer resolves. */
  lemma Scenario()
    ensures var (s1, dune) := Create(Empty(), CreateBookInput("Dune", "Sci-fi novel"));
            && dune == Book(1, "Dune", "Sci-fi novel")
            && FindAll(s1) == [dune]
            && var (s2, updated) := Update(s1, UpdateBookInput(1, Some("Dune (1965)"), None));
            && updated == Success(Some(Book(1, "Dune (1965)", "Sci-fi novel")))
            && FindOne(s2, 1) == updated.value
            && var (s3, removed) := Remove(s2, 1);
            && removed == updated.value
            && FindAll(s3) == []
            && FindOne(s3, 1) == None
  {
    var (s1, dune) := Create(Empty(), CreateBookInput("Dune", "Sci-fi novel"));
    assert FindAll(s1) == [dune] by {
      assert FindAllFrom(s1.rows, 2, 2) == [];
    }
    var (s2, updated) := Update(s1, UpdateBookInput(1, Some("Dune (1965)"), None));
    var (s3, removed) := Remove(s2, 1);
    assert s3.rows == map[];
    assert FindAll(s3) == [] by {
      assert FindAllFrom(s3.rows, 2, 2) == [];
    }
  }
}

=== FILE: cache_coherence.dfy ===
/** The dashboard patches its cached book list instead of fetching it
    again after a mutation. This module proves that the patch is exact:
    if the cached list was the server's `findAll` before a mutation, then
    reconciling with the server's answer yields the server's `findAll`
    after it, for every outcome of create, update and remove. */
module CacheCoherence {
  import opened Wrappers
  import opened BookEntity
  import opened BookService
  import opened CacheReconciler
  import Dashboard
  import BookModal

  /** The row stored under key `k` as a one-element list, or the empty
      list when no row has that key. */
  function RowAt(rows: map<int, Book>, k: int): seq<Book> {
    if k in rows then [rows[k]] else []
  }

  /** Listing one more key appends that key's row. */
  lemma {:induction false} FindAllFromExtend(rows: map<int, Book>, lo: int, hi: int)
    requires IdsMatch(rows) && lo <= hi
    ensures FindAllFrom(rows, lo, hi + 1) == FindAllFrom(rows, lo, hi) + RowAt(rows, hi)
    decreases hi - lo
  {
    if lo == hi {
      assert FindAllFrom(rows, lo + 1, hi + 1) == [];
      assert FindAllFrom(rows, lo, hi + 1) == RowAt(rows, lo) + [];
      assert FindAllFrom(rows, lo, hi) == [];
    } else {
      FindAllFromExtend(rows, lo + 1, hi);
      assert FindAllFrom(rows, lo, hi + 1) == RowAt(rows, lo) + FindAllFrom(rows, lo + 1, hi + 1);
      assert FindAllFrom(rows, lo, hi) == RowAt(rows, lo) + FindAllFrom(rows, lo + 1, hi);
    }
  }

  /** The listing of `[lo, hi)` depends only on the rows in that range. */
  lemma {:induction false} FindAllFromFrame(rows: map<int, Book>, rows': map<int, Book>, lo: int, hi: int)
    requires IdsMatch(rows) && IdsMatch(rows')
    requires forall k :: lo <= k < hi ==> (k in rows <==> k in rows')
    requires forall k :: lo <= k < hi && k in rows ==> rows[k] == rows'[k]
    ensures FindAllFrom(rows, lo, hi) == FindAllFrom(rows', lo, hi)
    decreases hi - lo
  {
    if lo < hi {
      FindAllFromFrame(rows, rows', lo + 1, hi);
    }
  }

  lemma {:induction false} FindAllFromReplace(rows: map<int, Book>, updated: Book, lo: int, hi: int)
    requires IdsMatch(rows) && updated.id in rows
    ensures IdsMatch(rows[updated.id := updated])
    ensures ReplaceById(FindAllFrom(rows, lo, hi), updated) == FindAllFrom(rows[updated.id := updated], lo, hi)
    decreases hi - lo
  {
    var rows' := rows[updated.id := updated];
    if lo < hi {
      FindAllFromReplace(rows, updated, lo + 1, hi);
      ReplaceByIdConcat(RowAt(rows, lo), FindAllFrom(rows, lo + 1, hi), updated);
      assert ReplaceById(RowAt(rows, lo), updated) == RowAt(rows', lo);
    }
  }

  lemma {:induction false} FindAllFromRemove(rows: map<int, Book>, id: int, lo: int, hi: int)
    requires IdsMatch(rows)
    ensures IdsMatch(rows - {id})
    ensures RemoveById(FindAllFrom(rows, lo, hi), id) == FindAllFrom(rows - {id}, lo, hi)
    decreases hi - lo
  {
    var rows' := rows - {id};
    if lo < hi {
      FindAllFromRemove(rows, id, lo + 1, hi);
      RemoveByIdConcat(RowAt(rows, lo), FindAllFrom(rows, lo + 1, hi), id);
      assert RemoveById(RowAt(rows, lo), id) == RowAt(rows', lo);
    }
  }

  /** Filing a row under a key past every stored key appends it to
      the listing. */
  lemma AppendListing(rows: map<int, Book>, b: Book)
    requires IdsMatch(rows) && b.id >= 1
    requires forall k :: k in rows ==> k < b.id
    ensures IdsMatch(rows[b.id := b])
    ensures FindAllFrom(rows[b.id := b], 1, b.id + 1) == FindAllFrom(rows, 1, b.id) + [b]
  {
    var rows' := rows[b.id := b];
    FindAllFromExtend(rows', 1, b.id);
    assert RowAt(rows', b.id) == [b];
    FindAllFromFrame(rows, rows', 1, b.id);
  }

  /** Appending the created book is exactly the server's new listing:
      the new id is larger than every stored one. */
  lemma CreateKeepsCacheCoherent(st: Store, input: CreateBookInput)
    requires Valid(st)
    ensures var (st', created) := Create(st, input);
            ReconcileCreate(Some(FindAll(st)), Some(created)) == Some(FindAll(st'))
  {
    var (st', created) := Create(st, input);
    AppendListing(st.rows, created);
  }

  /** Replacing by id is exactly the server's listing after a successful
      `update`; when the id is absent, `update` answers null, the client
      sees a failed mutation and neither side changes. */
  lemma UpdateKeepsCacheCoherent(st: Store, input: UpdateBookInput)
    requires Valid(st)
    ensures var (st', updated) := Update(st, input);
            updated.Success? ==> ReconcileUpdate(Some(FindAll(st)), updated.value) == Some(FindAll(st'))
  {
    var (st', updated) := Update(st, input);
    if updated.Success? && updated.value.Some? {
      var b := updated.value.value;
      assert st'.rows == st.rows[b.id := b];
      FindAllFromReplace(st.rows, b, 1, st.nextId);
    }
  }

  /** Filtering by id is exactly the server's listing after `remove`. */
  lemma RemoveKeepsCacheCoherent(st: Store, id: int)
    requires Valid(st)
    ensures var (st', removed) := Remove(st, id);
            ReconcileDelete(Some(FindAll(st)), removed) == Some(FindAll(st'))
  {
    var (st', removed) := Remove(st, id);
    if removed.Some? {
      FindAllFromRemove(st.rows, id, 1, st.nextId);
    }
  }

  /** How the server answers a save request, as the dashboard sees it.
      The mutation fields are declared non-null (`Book!`), so a null
      answer from `update` reaches the client as a rejected mutation, as
      does an error the repository throws. */
  function ServeSave(st: Store, req: Dashboard.SaveRequest): (r: (Store, Dashboard.Outcome))
    requires Valid(st)
    ensures Valid(r.0)
    ensures r.1.Rejected? ==> r.0 == st
    ensures req.CreateRequest? ==> && r.1.Resolved? && r.1.data.Some?
                                   && r.1.data.value.id !in st.rows
                                   && r.0.rows == st.rows[r.1.data.value.id := r.1.data.value]
                                   && r.1.data.value.name == req.create.name
                                   && r.1.data.value.description == req.create.description
    ensures req.UpdateRequest? && r.1.Resolved? ==> r.1.data.Some? && r.1.data.value.id in r.0.rows
  {
    match req
    case CreateRequest(input) =>
      var (st', created) := Create(st, input);
      (st', Dashboard.Resolved(Some(created)))
    case UpdateRequest(input) =>
      var (st', updated) := Update(st, input);
      (st', if updated.Failure? || updated.value.None? then Dashboard.Rejected else Dashboard.Resolved(updated.value))
  }

  /** How the server answers `removeBook(id)`, as the dashboard sees it. */
  function ServeDelete(st: Store, id: int): (r: (Store, Dashboard.Outcome))
    requires Valid(st)
    ensures Valid(r.0)
    ensures r.1.Rejected? ==> r.0 == st
    ensures r.1.Resolved? <==> id in st.rows
    ensures r.1.Resolved? ==> r.1.data == Some(st.rows[id]) && id !in r.0.rows
  {
    var (st', removed) := Remove(st, id);
    (st', if removed.None? then Dashboard.Rejected else Dashboard.Resolved(removed))
  }

  /** A save that the dashboard sends and the server answers leaves the
      cached list equal to the server's listing, whatever the answer. */
  lemma SaveKeepsCacheCoherent(s: Dashboard.State, st: Store, data: BookModal.BookData)
    requires Valid(st) && s.books == Some(FindAll(st))
    ensures var (s1, req) := Dashboard.BeginSave(s, data);
            req.Some? ==>
              var (st', outcome) := ServeSave(st, req.value);
              Dashboard.FinishSave(s1, req.value, outcome).books == Some(FindAll(st'))
  {
    var (s1, req) := Dashboard.BeginSave(s, data);
    if req.Some? {
      match req.value
      case CreateRequest(input) => CreateKeepsCacheCoherent(st, input);
      case UpdateRequest(input) => UpdateKeepsCacheCoherent(st, input);
    }
  }

  /** The form never hands over a blank field, so every update the
      dashboard sends names both columns: it is never refused for naming
      none, and it succeeds exactly when the edited book is still stored. */
  lemma SentUpdatesAreNeverEmpty(s: Dashboard.State, st: Store, data: BookModal.BookData)
    requires Valid(st)
    ensures var (_, req) := Dashboard.BeginSave(s, data);
            req.Some? && req.value.UpdateRequest? ==>
              && !IsEmptyPatch(PatchOf(req.value.update))
              && (ServeSave(st, req.value).1.Resolved? <==> s.editingBook.value.id in st.rows)
  {
  }

  /** The same for a confirmed delete. */
  lemma DeleteKeepsCacheCoherent(s: Dashboard.State, st: Store)
    requires Valid(st) && s.books == Some(FindAll(st))
    ensures var (s1, id) := Dashboard.BeginDelete(s);
            id.Some? ==>
              var (st', outcome) := ServeDelete(st, id.value);
              Dashboard.FinishDelete(s1, outcome).books == Some(FindAll(st'))
  {
    var (s1, id) := Dashboard.BeginDelete(s);
    if id.Some? {
      RemoveKeepsCacheCoherent(st, id.value);
    }
  }
}

=== FILE: cache_reconciler.dfy ===
/** The three `update` callbacks the dashboard hands to its mutations:
    after the server confirms a mutation, the cached result of the
    `GetBooks` query is patched in place instead of being fetched again.
    `None` for the cache means the query has no cached result; `None`
    for the mutation data means the response carried no book. */
module CacheReconciler {
  import opened Wrappers
  import opened BookEntity

  predicate HasId(books: seq<Book>, id: int) {
    exists i :: 0 <= i < |books| && books[i].id == id
  }

  /** `books.map(b => b.id === updated.id ? updated : b)`. */
  function ReplaceById(books: seq<Book>, updated: Book): (r: seq<Book>)
    ensures |r| == |books|
    ensures forall i :: 0 <= i < |r| ==> r[i] == (if books[i].id == updated.id then updated else books[i])
  {
    if |books| == 0 then []
    else [if books[0].id == updated.id then updated else books[0]] + ReplaceById(books[1..], updated)
  }

  /** `books.filter(b => b.id !== id)`. */
  function RemoveById(books: seq<Book>, id: int): (r: seq<Book>)
    ensures forall b :: multiset(r)[b] == if b.id == id then 0 else multiset(books)[b]
    ensures !HasId(r, id)
  {
    if |books| == 0 then []
    else
      var rest := RemoveById(books[1..], id);
      assert books == [books[0]] + books[1..];
      if books[0].id == id then rest else [books[0]] + rest
  }

  /** After `createBook`: the returned book is appended to the cached list. */
  function ReconcileCreate(cache: Option<seq<Book>>, created: Option<Book>): (r: Option<seq<Book>>)
    ensures cache.None? || created.None? ==> r == cache
    ensures cache.Some? && created.Some? ==>
              && r.Some?
              && |r.value| == |cache.value| + 1
              && r.value[..|cache.value|] == cache.value
              && r.value[|cache.value|] == created.value
  {
    match (cache, created)
    case (Some(books), Some(b)) => Some(books + [b])
    case _ => cache
  }

  /** After `updateBook`: cached entries with the returned id become the
      returned book, in their old positions. */
  function ReconcileUpdate(cache: Option<seq<Book>>, updated: Option<Book>): (r: Option<seq<Book>>)
    ensures cache.None? || updated.None? ==> r == cache
    ensures cache.Some? && updated.Some? ==>
              && r.Some?
              && |r.value| == |cache.value|
              && (forall i :: 0 <= i < |r.value| ==> r.value[i].id == cache.value[i].id)
              && (forall i :: 0 <= i < |r.value| && cache.value[i].id == updated.value.id ==> r.value[i] == updated.value)
              && (forall i :: 0 <= i < |r.value| && cache.value[i].id != updated.value.id ==> r.value[i] == cache.value[i])
  {
    match (cache, updated)
    case (Some(books), Some(b)) => Some(ReplaceById(books, b))
    case _ => cache
  }

  /** After `removeBook`: cached entries with the returned id are dropped. */
  function ReconcileDelete(cache: Option<seq<Book>>, removed: Option<Book>): (r: Option<seq<Book>>)
    ensures cache.None? || removed.None? ==> r == cache
    ensures cache.Some? && removed.Some? ==>
              && r.Some?
              && !HasId(r.value, removed.value.id)
              && forall b: Book :: b.id != removed.value.id ==> multiset(r.value)[b] == multiset(cache.value)[b]
  {
    match (cache, removed)
    case (Some(books), Some(b)) => Some(RemoveById(books, b.id))
    case _ => cache
  }

  /** An update for an id the cache does not hold changes nothing. */
  lemma {:induction false} ReplaceByIdAbsent(books: seq<Book>, updated: Book)
    requires !HasId(books, updated.id)
    ensures ReplaceById(books, updated) == books
  {
  }

  lemma ReconcileUpdateAbsent(cache: seq<Book>, updated: Book)
    requires !HasId(cache, updated.id)
    ensures ReconcileUpdate(Some(cache), Some(updated)) == Some(cache)
  {
    ReplaceByIdAbsent(cache, updated);
  }

  /** Applying the same update confirmation twice is applying it once. */
  lemma ReconcileUpdateIdempotent(cache: Option<seq<Book>>, updated: Option<Book>)
    ensures ReconcileUpdate(ReconcileUpdate(cache, updated), updated) == ReconcileUpdate(cache, updated)
  {
    if cache.Some? && updated.Some? {
      var once := ReplaceById(cache.value, updated.value);
      assert ReplaceById(once, updated.value) == once;
    }
  }

  /** Replacing distributes over concatenation. */
  lemma {:induction false} ReplaceByIdConcat(a: seq<Book>, b: seq<Book>, updated: Book)
    ensures ReplaceById(a + b, updated) == ReplaceById(a, updated) + ReplaceById(b, updated)
  {
    if |a| == 0 {
      assert a + b == b;
    } else {
      assert (a + b)[0] == a[0];
      assert (a + b)[1..] == a[1..] + b;
      ReplaceByIdConcat(a[1..], b, updated);
    }
  }

  /** Filtering distributes over concatenation: the entries that remain
      keep their relative order. */
  lemma {:induction false} RemoveByIdConcat(a: seq<Book>, b: seq<Book>, id: int)
    ensures RemoveById(a + b, id) == RemoveById(a, id) + RemoveById(b, id)
  {
    if |a| == 0 {
      assert a + b == b;
    } else {
      assert (a + b)[0] == a[0];
      assert (a + b)[1..] == a[1..] + b;
      RemoveByIdConcat(a[1..], b, id);
    }
  }

  /** A delete for an id the cache does not hold changes nothing. */
  lemma {:induction false} RemoveByIdAbsent(books: seq<Book>, id: int)
    requires !HasId(books, id)
    ensures RemoveById(books, id) == books
  {
    if |books| > 0 {
      assert !HasId(books[1..], id) by {
        forall i | 0 <= i < |books[1..]| ensures books[1..][i].id != id {
          assert books[1..][i] == books[i + 1];
        }
      }
      RemoveByIdAbsent(books[1..], id);
    }
  }

  lemma ReconcileDeleteAbsent(cache: seq<Book>, removed: Book)
    requires !HasId(cache, removed.id)
    ensures ReconcileDelete(Some(cache), Some(removed)) == Some(cache)
  {
    RemoveByIdAbsent(cache, removed.id);
  }

  /** Applying the same delete confirmation twice is applying it once. */
  lemma ReconcileDeleteIdempotent(cache: Option<seq<Book>>, removed: Option<Book>)
    ensures ReconcileDelete(ReconcileDelete(cache, removed), removed) == ReconcileDelete(cache, removed)
  {
    if cache.Some? && removed.Some? {
      RemoveByIdAbsent(RemoveById(cache.value, removed.value.id), removed.value.id);
    }
  }

  /** The create callback appends unconditionally, so a repeated
      confirmation leaves a second copy of the book in the list. */
  lemma ReconcileCreateTwiceDuplicates(cache: seq<Book>, created: Book)
    ensures var once := ReconcileCreate(Some(cache), Some(created));
            var twice := ReconcileCreate(once, Some(created));
            && twice != once
            && twice == Some(cache + [created, created])
  {
    assert cache + [created] + [created] == cache + [created, created];
  }
}

=== FILE: cors_policy.dfy ===
/** The CORS origin check of the serverless entry point: an allow-list
    built from `FRONTEND_URL` and the `origin` callback that consults it. */
module CorsPolicy {
  import opened Wrappers
  import opened Env
  import Strings
  import BackendConfig

  const DefaultOrigin: string := "http://localhost:3000"
  const NotAllowed: string := "Not allowed by CORS"

  /** `FRONTEND_URL.split(',').map(url => url.trim())` when the variable
      is set, the local development origin otherwise. */
  function AllowedOrigins(env: Environment): (r: seq<string>)
    ensures !IsSet(env, BackendConfig.FrontendUrlVar) ==> r == [DefaultOrigin]
    ensures IsSet(env, BackendConfig.FrontendUrlVar) ==>
              && |r| == Strings.Occurrences(env[BackendConfig.FrontendUrlVar], ',') + 1
              && forall i :: 0 <= i < |r| ==> r[i] == Strings.Trim(Strings.Split(env[BackendConfig.FrontendUrlVar], ',')[i])
    ensures forall i :: 0 <= i < |r| ==> Strings.IsTrimmed(r[i]) && ',' !in r[i]
  {
    if IsSet(env, BackendConfig.FrontendUrlVar) then
      BackendConfig.TrimAllChecked(Strings.Split(env[BackendConfig.FrontendUrlVar], ','))
    else
      [DefaultOrigin]
  }

  /** What the callback reports: `callback(null, true)` or
      `callback(new Error('Not allowed by CORS'))`. */
  datatype Decision = Allow | Deny(message: string)

  /** The `origin` callback. A request without an origin header (or with
      an empty one) is let through. */
  function CheckOrigin(allowed: seq<string>, origin: Option<string>): (d: Decision)
    ensures d.Allow? <==> origin.None? || origin.value == "" || origin.value in allowed
    ensures d.Deny? ==> d.message == NotAllowed
  {
    if origin.None? || origin.value == "" || origin.value in allowed then Allow else Deny(NotAllowed)
  }

  lemma DefaultOriginIsPlain()
    ensures ',' !in DefaultOrigin && Strings.IsTrimmed(DefaultOrigin)
    ensures DefaultOrigin == BackendConfig.DefaultFrontendUrl
  {
    assert DefaultOrigin[0] == 'h' && DefaultOrigin[|DefaultOrigin| - 1] == '0';
  }

  /** The entry point and the configuration factory read `FRONTEND_URL`
      alike when it holds a comma. Without one, the factory keeps the
      value untrimmed while the entry point trims it. */
  lemma AllowListMatchesConfiguration(env: Environment)
    ensures var url := GetOr(env, BackendConfig.FrontendUrlVar, BackendConfig.DefaultFrontendUrl);
            var origin := BackendConfig.GetCorsConfig(env).origin;
            && (',' in url ==> origin == BackendConfig.OriginList(AllowedOrigins(env)))
            && (',' !in url ==> origin == BackendConfig.SingleOrigin(url) && AllowedOrigins(env) == [Strings.Trim(url)])
  {
    DefaultOriginIsPlain();
    var url := GetOr(env, BackendConfig.FrontendUrlVar, BackendConfig.DefaultFrontendUrl);
    if IsSet(env, BackendConfig.FrontendUrlVar) {
      assert url == env[BackendConfig.FrontendUrlVar];
      if ',' !in url {
        Strings.SplitWithoutSeparator(url, ',');
      }
    } else {
      assert url == DefaultOrigin;
      Strings.TrimTrimmed(DefaultOrigin);
    }
  }

  /** A `FRONTEND_URL` padded with a space: the factory would hand the
      padded string on, while the entry point accepts the bare origin. */
  lemma PaddedSingleOrigin()
    ensures var env := map[BackendConfig.FrontendUrlVar := " http://a.example"];
            && BackendConfig.GetCorsConfig(env).origin == BackendConfig.SingleOrigin(" http://a.example")
            && CheckOrigin(AllowedOrigins(env), Some("http://a.example")) == Allow
  {
    var s := " http://a.example";
    var env := map[BackendConfig.FrontendUrlVar := s];
    assert IsSet(env, BackendConfig.FrontendUrlVar);
    assert ',' !in s by {
      assert forall i :: 0 <= i < |s| ==> s[i] != ',';
    }
    AllowListMatchesConfiguration(env);
    TrimPadded();
  }

  lemma TrimPadded()
    ensures Strings.Trim(" http://a.example") == "http://a.example"
  {
    var s := " http://a.example";
    assert s[1..] == "http://a.example";
    assert Strings.LeadingWhitespace(s[1..]) == 0;
    assert Strings.LeadingWhitespace(s) == 1;
    assert Strings.TrailingWhitespace(s) == 0;
  }
}

=== FILE: dashboard.dfy ===
/** The dashboard's mutation handlers: `handleSave` (create or update) and
    `handleDeleteConfirm`, guarded by the `isSaving` state flag and the
    shared `isMutationInProgress` ref, together with the handlers that
    open the modals. Each handler is split at its `await`: a Begin step
    that decides whether a request is sent, and a Finish step that takes
    how the mutation settled. */
module Dashboard {
  import opened Wrappers
  import opened BookEntity
  import opened CacheReconciler
  import BookModal
  import Strings

  /** The request `handleSave` sends. */
  datatype SaveRequest = CreateRequest(create: CreateBookInput) | UpdateRequest(update: UpdateBookInput)

  /** How a mutation settled: resolved, carrying the book in the
      response (`None` when the response has no data), or rejected. */
  datatype Outcome = Resolved(data: Option<Book>) | Rejected

  datatype State = State(
    books: Option<seq<Book>>,   // the cached result of the GetBooks query
    editingBook: Option<Book>,
    bookToDelete: Option<Book>,
    isSaving: bool,
    isDeleting: bool,
    mutationInProgress: bool,   // the isMutationInProgress ref
    isModalOpen: bool,
    isDeleteModalOpen: bool)

  /** The component as first rendered over a (possibly absent) cache. */
  function Initial(books: Option<seq<Book>>): State {
    State(books, None, None, false, false, false, false, false)
  }

  /** `handleCreate`: open the modal with no book being edited. */
  function HandleCreate(s: State): (r: State)
    ensures r.editingBook.None? && r.isModalOpen && !r.isSaving
    ensures r.mutationInProgress == s.mutationInProgress && r.books == s.books
    ensures r.bookToDelete == s.bookToDelete && r.isDeleting == s.isDeleting && r.isDeleteModalOpen == s.isDeleteModalOpen
  {
    s.(editingBook := None, isSaving := false, isModalOpen := true)
  }

  /** `handleEdit`: open the modal on `book`. */
  function HandleEdit(s: State, book: Book): (r: State)
    ensures r.editingBook == Some(book) && r.isModalOpen && !r.isSaving
    ensures r.mutationInProgress == s.mutationInProgress && r.books == s.books
    ensures r.bookToDelete == s.bookToDelete && r.isDeleting == s.isDeleting && r.isDeleteModalOpen == s.isDeleteModalOpen
  {
    s.(editingBook := Some(book), isSaving := false, isModalOpen := true)
  }

  /** `handleClose`: close the modal and drop `isSaving`; the ref is kept. */
  function HandleClose(s: State): (r: State)
    ensures !r.isModalOpen && !r.isSaving
    ensures r.mutationInProgress == s.mutationInProgress && r.books == s.books
    ensures r.editingBook == s.editingBook
    ensures r.bookToDelete == s.bookToDelete && r.isDeleting == s.isDeleting && r.isDeleteModalOpen == s.isDeleteModalOpen
  {
    s.(isSaving := false, isModalOpen := false)
  }

  /** `handleDeleteClick`: remember the target and ask for confirmation. */
  function HandleDeleteClick(s: State, book: Book): (r: State)
    ensures r.bookToDelete == Some(book) && r.isDeleteModalOpen
    ensures r.mutationInProgress == s.mutationInProgress && r.books == s.books
    ensures r.editingBook == s.editingBook && r.isSaving == s.isSaving && r.isDeleting == s.isDeleting && r.isModalOpen == s.isModalOpen
  {
    s.(bookToDelete := Some(book), isDeleteModalOpen := true)
  }

  /** The request for the form's data: an update of the edited book when
      there is one, a create otherwise. */
  function SaveRequestFor(editing: Option<Book>, data: BookModal.BookData): (req: SaveRequest)
    ensures req.UpdateRequest? <==> editing.Some?
    ensures req.UpdateRequest? ==> req.update == UpdateBookInput(editing.value.id, Some(data.name), Some(data.description))
    ensures req.CreateRequest? ==> req.create == CreateBookInput(data.name, data.description)
  {
    match editing
    case Some(b) => UpdateRequest(UpdateBookInput(b.id, Some(data.name), Some(data.description)))
    case None => CreateRequest(CreateBookInput(data.name, data.description))
  }

  /** `handleSave` up to its `await`: dropped while a save is marked or
      any mutation is in flight; otherwise both flags are raised and the
      request is sent. */
  function BeginSave(s: State, data: BookModal.BookData): (r: (State, Option<SaveRequest>))
    ensures r.1.None? <==> s.isSaving || s.mutationInProgress
    ensures r.1.None? ==> r.0 == s
    ensures r.1.Some? ==> && r.0.isSaving && r.0.mutationInProgress
                          && r.0 == s.(isSaving := true, mutationInProgress := true)
                          && r.1.value == SaveRequestFor(s.editingBook, data)
  {
    if s.isSaving || s.mutationInProgress then (s, None)
    else (s.(isSaving := true, mutationInProgress := true), Some(SaveRequestFor(s.editingBook, data)))
  }

  /** The cache patch Apollo applies when `req` resolves with `data`. */
  function ReconcileSave(books: Option<seq<Book>>, req: SaveRequest, data: Option<Book>): (r: Option<seq<Book>>)
    ensures books.None? || data.None? ==> r == books
    ensures req.CreateRequest? && books.Some? && data.Some? ==> r == Some(books.value + [data.value])
    ensures req.UpdateRequest? && books.Some? ==> r.Some? && |r.value| == |books.value|
    ensures req.UpdateRequest? && books.Some? && data.Some? ==>
              forall i :: 0 <= i < |books.value| ==>
                r.value[i] == (if books.value[i].id == data.value.id then data.value else books.value[i])
  {
    match req
    case CreateRequest(_) => ReconcileCreate(books, data)
    case UpdateRequest(_) => ReconcileUpdate(books, data)
  }

  /** `handleSave` after its `await`: on resolution the cache has been
      patched and the modal closes; on rejection cache and modal stay as
      they were. Both guard flags are cleared either way. */
  function FinishSave(s: State, req: SaveRequest, outcome: Outcome): (r: State)
    ensures !r.isSaving && !r.mutationInProgress
    ensures outcome.Rejected? ==> r.books == s.books && r.isModalOpen == s.isModalOpen
    ensures outcome.Resolved? ==> !r.isModalOpen
    ensures outcome.Resolved? ==> r.books == ReconcileSave(s.books, req, outcome.data)
    ensures outcome.Resolved? && outcome.data.None? ==> r.books == s.books
    ensures r.editingBook == s.editingBook && r.bookToDelete == s.bookToDelete
    ensures r.isDeleting == s.isDeleting && r.isDeleteModalOpen == s.isDeleteModalOpen
  {
    var s' := match outcome
      case Resolved(data) => s.(books := ReconcileSave(s.books, req, data), isModalOpen := false)
      case Rejected => s;
    s'.(isSaving := false, mutationInProgress := false)
  }

  /** The whole `handleSave`, with the request it sent (if any). */
  function HandleSave(s: State, data: BookModal.BookData, outcome: Outcome): (r: (State, Option<SaveRequest>))
    ensures r.1.None? <==> s.isSaving || s.mutationInProgress
    ensures r.1.None? ==> r.0 == s
    ensures r.1.Some? ==> !r.0.isSaving && !r.0.mutationInProgress
    ensures r.1.Some? ==> && r.1.value == SaveRequestFor(s.editingBook, data)
                          && r.0 == FinishSave(s.(isSaving := true, mutationInProgress := true), r.1.value, outcome)
  {
    var (s1, req) := BeginSave(s, data);
    match req
    case None => (s, None)
    case Some(q) => (FinishSave(s1, q, outcome), Some(q))
  }

  /** `handleDeleteConfirm` up to its `await`: dropped without a target
      or while any mutation is in flight; otherwise the ref and
      `isDeleting` are raised and the target's id is sent. */
  function BeginDelete(s: State): (r: (State, Option<int>))
    ensures r.1.None? <==> s.bookToDelete.None? || s.mutationInProgress
    ensures r.1.None? ==> r.0 == s
    ensures r.1.Some? ==> && r.1.value == s.bookToDelete.value.id
                          && r.0 == s.(isDeleting := true, mutationInProgress := true)
  {
    if s.bookToDelete.None? || s.mutationInProgress then (s, None)
    else (s.(isDeleting := true, mutationInProgress := true), Some(s.bookToDelete.value.id))
  }

  /** `handleDeleteConfirm` after its `await`: on resolution the cache has
      been patched, the confirmation closes and the target is cleared; on
      rejection they are kept. The ref and `isDeleting` are cleared
      either way. */
  function FinishDelete(s: State, outcome: Outcome): (r: State)
    ensures !r.isDeleting && !r.mutationInProgress
    ensures outcome.Rejected? ==> r.books == s.books && r.bookToDelete == s.bookToDelete
                                  && r.isDeleteModalOpen == s.isDeleteModalOpen
    ensures outcome.Resolved? ==> r.bookToDelete.None? && !r.isDeleteModalOpen
    ensures outcome.Resolved? ==> r.books == ReconcileDelete(s.books, outcome.data)
    ensures r.editingBook == s.editingBook && r.isSaving == s.isSaving && r.isModalOpen == s.isModalOpen
  {
    var s' := match outcome
      case Resolved(data) =>
        s.(books := ReconcileDelete(s.books, data), isDeleteModalOpen := false, bookToDelete := None)
      case Rejected => s;
    s'.(isDeleting := false, mutationInProgress := false)
  }

  /** The whole `handleDeleteConfirm`, with the id it sent (if any). */
  function HandleDeleteConfirm(s: State, outcome: Outcome): (r: (State, Option<int>))
    ensures r.1.None? <==> s.bookToDelete.None? || s.mutationInProgress
    ensures r.1.None? ==> r.0 == s
    ensures r.1.Some? ==> !r.0.isDeleting && !r.0.mutationInProgress
    ensures r.1.Some? ==> && r.1.value == s.bookToDelete.value.id
                          && r.0 == FinishDelete(s.(isDeleting := true, mutationInProgress := true), outcome)
  {
    var (s1, id) := BeginDelete(s);
    match id
    case None => (s, None)
    case Some(_) => (FinishDelete(s1, outcome), id)
  }

  /** From the first render, a save is sent as a create, and a delete
      is sent once a target has been chosen. */
  lemma InitialAcceptsMutations(books: Option<seq<Book>>, data: BookModal.BookData, book: Book)
    ensures BeginSave(Initial(books), data).1 == Some(CreateRequest(CreateBookInput(data.name, data.description)))
    ensures BeginDelete(Initial(books)).1.None?
    ensures BeginDelete(HandleDeleteClick(Initial(books), book)).1 == Some(book.id)
  {
  }

  /** The props the dashboard hands to the form. */
  function ModalProps(s: State): BookModal.Props {
    BookModal.Props(s.editingBook, s.isModalOpen)
  }

  /** After a rejected save the modal stays open on the same book, so the
      form's reset effect does not run: the form stays submitting and
      ignores every further click, although the dashboard itself would
      accept another save. Closing the modal is what frees the form. */
  lemma RejectedSaveLocksForm(s: State, m: BookModal.ModalState, data': BookModal.BookData)
    requires BookModal.HandleSave(m).1.Some?
    requires BeginSave(s, BookModal.HandleSave(m).1.value).1.Some?
    ensures var (m1, d) := BookModal.HandleSave(m);
            var (s1, req) := BeginSave(s, d.value);
            var s2 := FinishSave(s1, req.value, Rejected);
            var m2 := BookModal.Rerender(m1, ModalProps(s), ModalProps(s2));
            && s2.isModalOpen == s.isModalOpen
            && m2.isSubmitting && BookModal.SaveDisabled(m2)
            && BookModal.HandleSave(m2).1.None?
            && BeginSave(s2, data').1.Some?
            && (s.isModalOpen ==> !BookModal.Rerender(m2, ModalProps(s2), ModalProps(HandleClose(s2))).isSubmitting)
  {
  }

  /** While a save is outstanding, a second save and a delete are both
      dropped; once it settles, whatever the outcome, a save is accepted
      again. */
  lemma SaveInFlightBlocksMutations(s: State, data: BookModal.BookData, data': BookModal.BookData, outcome: Outcome)
    requires BeginSave(s, data).1.Some?
    ensures var (s1, req) := BeginSave(s, data);
            && BeginSave(s1, data').1.None?
            && BeginDelete(s1).1.None?
            && BeginSave(FinishSave(s1, req.value, outcome), data').1.Some?
  {
  }

  /** While a delete is outstanding, a second delete and a save are both
      dropped; once it settles, the ref no longer blocks a save. */
  lemma DeleteInFlightBlocksMutations(s: State, data: BookModal.BookData, outcome: Outcome)
    requires BeginDelete(s).1.Some? && !s.isSaving
    ensures var s1 := BeginDelete(s).0;
            && BeginDelete(s1).1.None?
            && BeginSave(s1, data).1.None?
            && BeginSave(FinishDelete(s1, outcome), data).1.Some?
  {
  }

  /** Editing a book and submitting the untouched form sends an update of
      that book's id carrying its trimmed fields. */
  lemma EditAndSubmitSendsUpdate(s: State, book: Book)
    requires !s.mutationInProgress
    requires BookModal.HandleSave(BookModal.Reset(Some(book))).1.Some?
    ensures var data := BookModal.HandleSave(BookModal.Reset(Some(book))).1.value;
            BeginSave(HandleEdit(s, book), data).1
              == Some(UpdateRequest(UpdateBookInput(book.id, Some(Strings.Trim(book.name)), Some(Strings.Trim(book.description)))))
  {
  }
}

=== FILE: env.dfy ===
/** The process environment as the configuration code reads it, with
    JavaScript truthiness: a variable counts as set only when it is
    present and non-empty. */
module Env {
  import opened Wrappers
  import Strings

  type Environment = map<string, string>

  /** `process.env[key]` is truthy. */
  predicate IsSet(env: Environment, key: string) {
    key in env && env[key] != ""
  }

  /** `process.env[key] || fallback`. */
  function GetOr(env: Environment, key: string, fallback: string): (v: string)
    ensures IsSet(env, key) ==> v == env[key]
    ensures !IsSet(env, key) ==> v == fallback
  {
    if IsSet(env, key) then env[key] else fallback
  }

  /** `required.filter(name => !process.env[name])`. */
  function Missing(env: Environment, required: seq<string>): (missing: seq<string>)
    ensures |missing| <= |required|
  {
    if |required| == 0 then []
    else (if IsSet(env, required[0]) then [] else [required[0]]) + Missing(env, required[1..])
  }

  /** Exactly the required names that are not set are reported. */
  lemma {:induction false} MissingMembers(env: Environment, required: seq<string>)
    ensures forall v :: v in Missing(env, required) <==> v in required && !IsSet(env, v)
  {
    if |required| > 0 {
      MissingMembers(env, required[1..]);
      assert required == [required[0]] + required[1..];
    }
  }

  /** The missing names come out in the order they were required. */
  lemma {:induction false} MissingConcat(env: Environment, a: seq<string>, b: seq<string>)
    ensures Missing(env, a + b) == Missing(env, a) + Missing(env, b)
  {
    if |a| == 0 {
      assert a + b == b;
    } else {
      var ab := a + b;
      var head := if IsSet(env, a[0]) then [] else [a[0]];
      assert ab[0] == a[0];
      assert ab[1..] == a[1..] + b;
      MissingConcat(env, a[1..], b);
      assert Missing(env, ab) == head + (Missing(env, a[1..]) + Missing(env, b));
      assert Missing(env, a) == head + Missing(env, a[1..]);
    }
  }

  const MissingPrefix: string := "Missing required environment variables: "

  /** `validateEnvironmentVariables`: throws an error listing, joined by
      ", ", every required variable that is not set. */
  function Validate(env: Environment, required: seq<string>): (r: Result<(), string>)
    ensures r.Failure? <==> exists i :: 0 <= i < |required| && !IsSet(env, required[i])
    ensures r.Failure? ==> r.error == MissingPrefix + Strings.Join(Missing(env, required), ", ")
  {
    var missing := Missing(env, required);
    MissingMembers(env, required);
    if |missing| > 0 then
      assert missing[0] in missing;
      Failure(MissingPrefix + Strings.Join(missing, ", "))
    else
      assert forall i :: 0 <= i < |required| ==> required[i] !in missing;
      Success(())
  }
}

=== FILE: frontend_config.dfy ===
/** The frontend's configuration factory: Auth0 client settings and the
    Apollo client settings, behind a validation of the three required
    variables. The page origin, read from `window.location`, is a
    parameter. */
module FrontendConfig {
  import opened Wrappers
  import opened Env
  import Strings

  const DomainVar: string := "REACT_APP_AUTH0_DOMAIN"
  const ClientIdVar: string := "REACT_APP_AUTH0_CLIENT_ID"
  const AudienceVar: string := "REACT_APP_AUTH0_AUDIENCE"
  const GraphqlUrlVar: string := "REACT_APP_GRAPHQL_URL"

  const DefaultGraphqlUrl: string := "http://localhost:4000/graphql"

  datatype CacheLocation = LocalStorage | Memory

  datatype Auth0Config = Auth0Config(
    domain: string, clientId: string, audience: string, redirectUri: string,
    useRefreshTokens: bool, cacheLocation: CacheLocation)

  datatype ApolloConfig = ApolloConfig(graphqlUrl: string, fetchPolicy: string, queryDeduplication: bool)

  datatype AppConfig = AppConfig(auth0: Auth0Config, apollo: ApolloConfig)

  const Required: seq<string> := [DomainVar, ClientIdVar, AudienceVar]

  /** `validateEnvironmentVariables` with the frontend's three required
      variables; the message lists the missing ones in that order. */
  function Validate(env: Environment): (r: Result<(), string>)
    ensures r.Failure? <==> !IsSet(env, DomainVar) || !IsSet(env, ClientIdVar) || !IsSet(env, AudienceVar)
    ensures r.Failure? ==> r.error == MissingPrefix + Strings.Join(Missing(env, Required), ", ")
  {
    assert Required[0] == DomainVar && Required[1] == ClientIdVar && Required[2] == AudienceVar;
    Env.Validate(env, Required)
  }

  /** With every required variable unset, all three are named, in the
      order they are declared. */
  lemma NothingSetNamesAll(env: Environment)
    requires !IsSet(env, DomainVar) && !IsSet(env, ClientIdVar) && !IsSet(env, AudienceVar)
    ensures Validate(env) == Failure(MissingPrefix + RequiredJoined)
  {
    MissingConcat(env, [DomainVar], [ClientIdVar, AudienceVar]);
    MissingConcat(env, [ClientIdVar], [AudienceVar]);
    assert [ClientIdVar, AudienceVar] == [ClientIdVar] + [AudienceVar];
    assert Required == [DomainVar] + [ClientIdVar, AudienceVar];
    assert Missing(env, Required) == Required;
    RequiredJoin();
  }

  const RequiredJoined: string := DomainVar + ", " + ClientIdVar + ", " + AudienceVar

  lemma RequiredJoin()
    ensures Strings.Join(Required, ", ") == RequiredJoined
  {
    assert Required[1..] == [ClientIdVar, AudienceVar];
    assert Required[1..][1..] == [AudienceVar];
    assert Strings.Join(Required[1..], ", ") == ClientIdVar + ", " + AudienceVar;
    assert Strings.Join(Required, ", ") == DomainVar + ", " + (ClientIdVar + ", " + AudienceVar);
  }

  /** `getAuth0Config`. */
  function GetAuth0Config(env: Environment, origin: string): (c: Auth0Config)
    ensures c.domain == GetOr(env, DomainVar, "")
    ensures c.clientId == GetOr(env, ClientIdVar, "")
    ensures c.audience == GetOr(env, AudienceVar, "")
    ensures c.redirectUri == origin
    ensures !c.useRefreshTokens && c.cacheLocation == LocalStorage
  {
    Auth0Config(GetOr(env, DomainVar, ""), GetOr(env, ClientIdVar, ""), GetOr(env, AudienceVar, ""),
                origin, false, LocalStorage)
  }

  /** A variable that is unset or empty reads as "": absent and empty
      are indistinguishable to the Auth0 settings. */
  lemma Auth0EmptyEqualsAbsent(env: Environment, origin: string)
    ensures GetAuth0Config(env[DomainVar := ""], origin).domain == GetAuth0Config(env - {DomainVar}, origin).domain == ""
  {
  }

  /** `getApolloConfig`. */
  function GetApolloConfig(env: Environment): (c: ApolloConfig)
    ensures IsSet(env, GraphqlUrlVar) ==> c.graphqlUrl == env[GraphqlUrlVar]
    ensures !IsSet(env, GraphqlUrlVar) ==> c.graphqlUrl == DefaultGraphqlUrl
    ensures c.fetchPolicy == "cache-first" && c.queryDeduplication
  {
    ApolloConfig(GetOr(env, GraphqlUrlVar, DefaultGraphqlUrl), "cache-first", true)
  }

  /** `getAppConfig`: validation runs first. */
  function GetAppConfig(env: Environment, origin: string): (r: Result<AppConfig, string>)
    ensures r.Failure? <==> Validate(env).Failure?
    ensures r.Failure? ==> r.error == Validate(env).error
    ensures r.Success? ==> && r.value.auth0.domain == env[DomainVar] != ""
                           && r.value.auth0.clientId == env[ClientIdVar] != ""
                           && r.value.auth0.audience == env[AudienceVar] != ""
                           && r.value.auth0 == GetAuth0Config(env, origin)
                           && r.value.apollo == GetApolloConfig(env)
  {
    match Validate(env)
    case Failure(e) => Failure(e)
    case Success(_) => Success(AppConfig(GetAuth0Config(env, origin), GetApolloConfig(env)))
  }
}

=== FILE: jwt_auth_guard.dfy ===
/** `JwtAuthGuard.handleRequest`: how the guard turns the outcome of the
    JWT strategy into the authenticated user or a thrown exception.
    Token verification itself is not part of this model. */
module JwtAuthGuard {
  import opened Wrappers

  /** `ERROR_MESSAGES.UNAUTHORIZED`. */
  const UnauthorizedAccess: string := "Unauthorized access"

  /** An error raised by the strategy (always truthy). */
  datatype AuthError = AuthError(message: string)

  /** The strategy's `info` object; its `message` may be missing. */
  datatype AuthInfo = AuthInfo(message: Option<string>)

  /** What `handleRequest` throws: the strategy's own error, or a fresh
      `UnauthorizedException`. */
  datatype Rejection = Rethrown(error: AuthError) | Unauthorized(message: string)

  /** The message of the fresh exception: `info?.message`, falling back
      when it is missing or empty. */
  function UnauthorizedMessage(info: Option<AuthInfo>): (m: string)
    ensures m != ""
    ensures info.Some? && info.value.message.Some? && info.value.message.value != "" ==> m == info.value.message.value
    ensures info.None? || info.value.message.None? || info.value.message.value == "" ==> m == UnauthorizedAccess
  {
    if info.Some? && info.value.message.Some? && info.value.message.value != "" then info.value.message.value
    else UnauthorizedAccess
  }

  /** `handleRequest(err, user, info)`; `user` is `None` when the strategy
      passed a falsy user. */
  function HandleRequest<U>(err: Option<AuthError>, user: Option<U>, info: Option<AuthInfo>): (r: Result<U, Rejection>)
    ensures r.Success? <==> err.None? && user.Some?
    ensures r.Success? ==> r.value == user.value
    ensures err.Some? ==> r == Failure(Rethrown(err.value))
    ensures err.None? && user.None? ==> r == Failure(Unauthorized(UnauthorizedMessage(info)))
  {
    if err.Some? || user.None? then
      var message := UnauthorizedMessage(info);
      Failure(if err.Some? then Rethrown(err.value) else Unauthorized(message))
    else
      Success(user.value)
  }

  /** Whatever the inputs, a rejection always carries a message, and no
      request without a user gets through. */
  lemma NoUserNoAccess<U>(err: Option<AuthError>, info: Option<AuthInfo>)
    ensures HandleRequest<U>(err, None, info).Failure?
    ensures err.None? ==> HandleRequest<U>(err, None, info).error.Unauthorized?
                          && HandleRequest<U>(err, None, info).error.message != ""
  {
  }
}

=== FILE: numbers.dfy ===
/** Integer <-> decimal text, as JavaScript does it: template-literal
    interpolation of an integer `number`, and `parseInt(s, 10)`.
    JavaScript's NaN is `None`. */
module Numbers {
  import opened Wrappers
  import Strings

  predicate IsDigit(c: char) {
    '0' <= c <= '9'
  }

  predicate AllDigits(s: string) {
    forall i :: 0 <= i < |s| ==> IsDigit(s[i])
  }

  function DigitChar(d: nat): (c: char)
    requires d < 10
    ensures IsDigit(c)
  {
    ('0' as int + d) as char
  }

  function DigitValue(c: char): (d: nat)
    requires IsDigit(c)
    ensures d < 10 && DigitChar(d) == c
  {
    c as int - '0' as int
  }

  /** Value of a string of decimal digits, most significant first. */
  function DigitsValue(s: string): nat
    requires AllDigits(s)
  {
    if |s| == 0 then 0 else 10 * DigitsValue(s[..|s| - 1]) + DigitValue(s[|s| - 1])
  }

  /** Shortest decimal numeral of `n`: digits only, no leading zero. */
  function NatToString(n: nat): (s: string)
    ensures |s| >= 1 && AllDigits(s)
    ensures s[0] == '0' ==> n == 0
  {
    if n < 10 then [DigitChar(n)] else NatToString(n / 10) + [DigitChar(n % 10)]
  }

  /** `${i}` for an integer-valued number. */
  function IntToString(i: int): (s: string)
    ensures |s| >= 1
    ensures s[0] == '-' <==> i < 0
  {
    if i < 0 then "-" + NatToString(-i) else NatToString(i)
  }

  /** Length of the longest all-digit prefix. */
  function DigitRun(s: string): (k: nat)
    ensures k <= |s| && AllDigits(s[..k])
    ensures k < |s| ==> !IsDigit(s[k])
  {
    if |s| > 0 && IsDigit(s[0]) then
      var k := 1 + DigitRun(s[1..]);
      assert s[..k] == [s[0]] + s[1..][..k - 1];
      k
    else 0
  }

  /** `parseInt(s, 10)`: skip leading whitespace, read an optional sign,
      then the longest run of digits; NaN (`None`) when there is none.
      Whatever follows the digits is ignored. */
  function ParseInt(s: string): (r: Option<int>)
    ensures var t := s[Strings.LeadingWhitespace(s)..];
            var u := if |t| > 0 && (t[0] == '-' || t[0] == '+') then t[1..] else t;
            r.Some? <==> |u| > 0 && IsDigit(u[0])
  {
    var t := s[Strings.LeadingWhitespace(s)..];
    var negative := |t| > 0 && t[0] == '-';
    var u := if |t| > 0 && (t[0] == '-' || t[0] == '+') then t[1..] else t;
    var k := DigitRun(u);
    if k == 0 then None
    else
      var v := DigitsValue(u[..k]);
      Some(if negative then -(v as int) else v)
  }

  lemma {:induction false} DigitsValueOfNat(n: nat)
    ensures DigitsValue(NatToString(n)) == n
  {
    if n >= 10 {
      DigitsValueOfNat(n / 10);
      var s := NatToString(n);
      assert s[..|s| - 1] == NatToString(n / 10);
    }
  }

  /** A numeral followed by anything that is not a digit parses back
      to the number: `parseInt` reads exactly the numeral. */
  lemma ParseIntOfNumeral(n: nat, rest: string)
    requires |rest| == 0 || !IsDigit(rest[0])
    ensures ParseInt(NatToString(n) + rest) == Some(n)
    ensures ParseInt("-" + NatToString(n) + rest) == Some(-(n as int))
  {
    var s := NatToString(n);
    DigitsValueOfNat(n);
    DigitRunOfNumeral(s, rest);
    assert (s + rest)[..|s|] == s;
    assert Strings.LeadingWhitespace(s + rest) == 0 by {
      assert !Strings.IsWhitespace((s + rest)[0]);
    }
    var m := "-" + s + rest;
    assert Strings.LeadingWhitespace(m) == 0 by {
      assert !Strings.IsWhitespace(m[0]);
    }
    assert m[1..] == s + rest;
  }

  lemma {:induction false} DigitRunOfNumeral(s: string, rest: string)
    requires AllDigits(s)
    requires |rest| == 0 || !IsDigit(rest[0])
    ensures DigitRun(s + rest) == |s|
  {
    if |s| > 0 {
      assert (s + rest)[1..] == s[1..] + rest;
      DigitRunOfNumeral(s[1..], rest);
    }
  }

  /** Interpolating an integer and parsing it back is the identity. */
  lemma ParseIntToString(i: int)
    ensures ParseInt(IntToString(i)) == Some(i)
  {
    if i < 0 {
      ParseIntOfNumeral(-i, "");
      assert "-" + NatToString(-i) + "" == IntToString(i);
    } else {
      ParseIntOfNumeral(i, "");
      assert NatToString(i) + "" == IntToString(i);
    }
  }
}

=== FILE: strings.dfy ===
/** The JavaScript string primitives the application relies on:
    `String.prototype.trim`, `split` on a one-character separator,
    `Array.prototype.join` and `includes`. Strings are `seq<char>`. */
module Strings {

  /** The characters `trim` removes: the WhiteSpace and LineTerminator
      code points of sections 12.2 and 12.3 of ECMA-262. */
  predicate IsWhitespace(c: char) {
    || c == '\t' || c == '\U{000B}' || c == '\U{000C}' || c == ' '
    || c == '\U{00A0}' || c == '\U{FEFF}' || c == '\U{1680}'
    || ('\U{2000}' <= c <= '\U{200A}')
    || c == '\U{202F}' || c == '\U{205F}' || c == '\U{3000}'
    || c == '\n' || c == '\r' || c == '\U{2028}' || c == '\U{2029}'
  }

  predicate AllWhitespace(s: string) {
    forall i :: 0 <= i < |s| ==> IsWhitespace(s[i])
  }

  /** Neither the first nor the last character is whitespace. */
  predicate IsTrimmed(s: string) {
    |s| == 0 || (!IsWhitespace(s[0]) && !IsWhitespace(s[|s| - 1]))
  }

  /** Number of leading whitespace characters. */
  function LeadingWhitespace(s: string): (n: nat)
    ensures n <= |s|
    ensures AllWhitespace(s[..n])
    ensures n < |s| ==> !IsWhitespace(s[n])
  {
    if |s| > 0 && IsWhitespace(s[0]) then
      var n := 1 + LeadingWhitespace(s[1..]);
      assert s[..n] == [s[0]] + s[1..][..n - 1];
      n
    else 0
  }

  /** Number of trailing whitespace characters. */
  function TrailingWhitespace(s: string): (n: nat)
    ensures n <= |s|
    ensures AllWhitespace(s[|s| - n..])
    ensures n < |s| ==> !IsWhitespace(s[|s| - n - 1])
  {
    if |s| > 0 && IsWhitespace(s[|s| - 1]) then
      var n := 1 + TrailingWhitespace(s[..|s| - 1]);
      assert s[|s| - n..] == s[..|s| - 1][|s| - n..] + [s[|s| - 1]];
      n
    else 0
  }

  /** `String.prototype.trim`: the slice of `s` left after dropping
      leading and trailing whitespace. */
  function Trim(s: string): (r: string)
    ensures IsTrimmed(r)
    ensures exists i, j :: 0 <= i <= j <= |s| && r == s[i..j]
                           && AllWhitespace(s[..i]) && AllWhitespace(s[j..])
    ensures r == [] <==> AllWhitespace(s)
  {
    var i := LeadingWhitespace(s);
    if i == |s| then
      assert s[i..i] == [];
      []
    else
      var j := |s| - TrailingWhitespace(s);
      assert !IsWhitespace(s[i]);
      assert i < j;
      var r := s[i..j];
      assert r[0] == s[i] && r[|r| - 1] == s[j - 1];
      r
  }

  /** A string with no surrounding whitespace is its own trim. */
  lemma TrimTrimmed(s: string)
    requires IsTrimmed(s)
    ensures Trim(s) == s
  {
    if |s| > 0 {
      assert LeadingWhitespace(s) == 0;
      assert TrailingWhitespace(s) == 0;
    }
  }

  lemma TrimIdempotent(s: string)
    ensures Trim(Trim(s)) == Trim(s)
  {
    TrimTrimmed(Trim(s));
  }

  /** Total number of characters in `parts`. */
  function TotalLength(parts: seq<string>): nat {
    if |parts| == 0 then 0 else |parts[0]| + TotalLength(parts[1..])
  }

  /** `parts.join(sep)`. */
  function Join(parts: seq<string>, sep: string): (r: string)
    ensures |parts| == 0 ==> r == ""
    ensures |parts| == 1 ==> r == parts[0]
  {
    if |parts| == 0 then ""
    else if |parts| == 1 then parts[0]
    else parts[0] + sep + Join(parts[1..], sep)
  }

  /** The joined string starts with the first part, and its length is the
      parts' total plus one separator between each neighbouring pair. */
  lemma {:induction false} JoinShape(parts: seq<string>, sep: string)
    requires |parts| > 0
    ensures |Join(parts, sep)| == TotalLength(parts) + (|parts| - 1) * |sep|
    ensures Join(parts, sep)[..|parts[0]|] == parts[0]
  {
    if |parts| > 1 {
      JoinShape(parts[1..], sep);
      var r := Join(parts, sep);
      assert r == parts[0] + (sep + Join(parts[1..], sep));
    }
  }

  /** Number of occurrences of `c` in `s`. */
  function Occurrences(s: string, c: char): nat {
    if |s| == 0 then 0 else (if s[0] == c then 1 else 0) + Occurrences(s[1..], c)
  }

  /** `s.split(sep)` for a one-character separator: the maximal
      separator-free pieces between occurrences of `sep`. */
  function Split(s: string, sep: char): (parts: seq<string>)
    ensures |parts| == Occurrences(s, sep) + 1
    ensures forall i :: 0 <= i < |parts| ==> sep !in parts[i]
    ensures Join(parts, [sep]) == s
  {
    if |s| == 0 then [""]
    else
      var rest := Split(s[1..], sep);
      if s[0] == sep then
        assert s == [sep] + s[1..];
        [""] + rest
      else
        var parts := [[s[0]] + rest[0]] + rest[1..];
        assert parts[1..] == rest[1..];
        assert s == [s[0]] + s[1..];
        parts
  }

  /** Splitting undoes joining: pieces free of the separator come back
      unchanged from `Split(Join(parts, [sep]), sep)`. */
  lemma {:induction false} SplitJoin(parts: seq<string>, sep: char)
    requires |parts| >= 1
    requires forall i :: 0 <= i < |parts| ==> sep !in parts[i]
    ensures Split(Join(parts, [sep]), sep) == parts
    decreases |parts|, |parts[0]|
  {
    if |parts[0]| == 0 {
      if |parts| == 1 {
      } else {
        SplitJoin(parts[1..], sep);
        assert Join(parts, [sep]) == [sep] + Join(parts[1..], [sep]);
      }
    } else {
      var c := parts[0][0];
      var parts' := [parts[0][1..]] + parts[1..];
      assert parts'[1..] == parts[1..];
      SplitJoin(parts', sep);
      assert parts[0] == [c] + parts'[0];
      var joined := Join(parts, [sep]);
      assert joined == [c] + Join(parts', [sep]);
      assert joined[1..] == Join(parts', [sep]);
      assert [[c] + parts'[0]] + parts'[1..] == parts;
    }
  }

  /** With no separator in `s`, splitting yields `s` alone. */
  lemma SplitWithoutSeparator(s: string, sep: char)
    requires sep !in s
    ensures Split(s, sep) == [s]
  {
    SplitJoin([s], sep);
  }

  /** `parts.map(p => p.trim())`. */
  function TrimAll(parts: seq<string>): (r: seq<string>)
    ensures |r| == |parts|
    ensures forall i :: 0 <= i < |r| ==> r[i] == Trim(parts[i])
  {
    if |parts| == 0 then []
    else
      var rest := TrimAll(parts[1..]);
      assert forall i :: 0 <= i < |rest| ==> rest[i] == Trim(parts[1..][i]);
      [Trim(parts[0])] + rest
  }
}

=== FILE: wrappers.dfy ===
/** Failure-compatible wrappers shared by every module of the model:
    `Option` stands for JavaScript's `null`/`undefined`, `Result` for a
    value-or-thrown-error outcome. */
module Wrappers {

  datatype Option<+T> = None | Some(value: T) {

    /** The contained value, or `default` when there is none. */
    function GetOr(default: T): T {
      match this
      case Some(v) => v
      case None => default
    }
  }

  datatype Result<+R, +E> = Success(value: R) | Failure(error: E)
}
